=== FILE: README.md ===
# rock-n-rate-api in Dafny

A model of the core of rock-n-rate-api, an Express/Mongoose backend where
users rate and comment on artists, albums and songs. The model is written as
immutable datatypes and pure functions, and properties about it are proved.
The modelled core is:

- **Rating aggregation.** Albums and songs keep an embedded array of
  `{userId, rating}` entries and a summary `rating`. The rate handler upserts
  the caller's entry, the remove-rating handler filters it out, and
  `updateRating` recomputes the mean (0 when there are no entries). Artists
  keep their ratings in the normalized `Rating` collection instead, and the
  summary is recomputed from every record of the artist.
  Modules: `Aggregate`, `Embedded`, `Rateable`, `Albums`, `Songs`,
  `RatingStore`, `Artists`.
- **Slug transliteration** (`Slug`, with `Text` for lower-casing and
  trimming). The pipeline lower-cases, trims, transliterates six Turkish
  letter pairs, strips to `[a-z0-9 -]`, collapses white-space runs to '-',
  then collapses hyphen runs.
- **Comments** (`Comments`): the content check, owner-only deletion,
  like/unlike with the kept count, and topic capitalisation.
- **Request rules.** These are registration validation (`Register`,
  `Patterns`), the three list paginators (`Pagination`, `Numbers`),
  language selection, the `identifyUser` → `authenticate` pipeline
  (`Middleware`), and the upload extension filter (`Upload`).
- **The two user models.** `Users` covers User.js: the JSON projection,
  login by e-mail or username, the pre-save hook and the activation-code
  generator. `EmailUsers` covers user.js: the password rule, the projection,
  login with the deleted-account guard, and the hook.

The database is modelled in memory: a map from id to document, or a
sequence of records in insertion order, which is the order `findOne` scans.
`Result`/`Option` values stand for the outcomes. `TypeFault` is a JavaScript
TypeError, `ReferenceFault` a ReferenceError, `ValidationFault` a Mongoose
validation error, and `Thrown(m)` an `Error` with message `m`. A handler
turns each error it catches into a 400 response carrying the message. The
ReferenceError of src/db/models/Song.js:55 is the exception: it is raised
while the module loads (src/server.js:3 → src/routes/index.js:4 →
src/routes/artist.js:4 → Song.js), so the server never starts and no request
at all is answered. `Artists.RateAsWritten`, `Artists.RemoveAsWritten` and
`Rateable.ViewAsWritten` each describe their handler as it behaves once that
line is fixed.

Some behaviour comes from outside the code and is passed in as a parameter:

- `bcrypt.compare` / `bcrypt.hash`;
- `jwt.verify`;
- `validator.isEmail`;
- the draws of `Math.random`;
- the current year;
- the id the database assigns.

## Model

| member | source | states |
|---|---|---|
| Aggregate.Mean | src/db/models/Album.js:72-82 | The summary is 0 for no ratings; otherwise, multiplied by the number of ratings, it gives back their sum |
| Aggregate.SumAppend | src/db/models/Album.js:76-79 | The `reduce` sum of a concatenation is the sum of the parts |
| Aggregate.SumPermutation | src/db/models/Album.js:76-79 | The sum depends only on the multiset of values |
| Aggregate.MeanPermutation | src/db/models/Album.js:76-80 | The summary is invariant under any reordering of the ratings |
| Aggregate.SumBounds | src/db/models/Album.js:12-17 | n ratings, each within [1, 10], sum to between n and 10·n |
| Aggregate.MeanInRange | src/db/models/Album.js:73-81 | A non-empty array of values in [1, 10] has a summary in [1, 10] |
| Embedded.FindIndex | src/routes/album.js:129-131 | `findIndex` returns the first entry of the caller, and none only when the caller has no entry |
| Embedded.Lookup | src/routes/album.js:82-86 | The relevant-user value is present iff the user has an entry, and it is the value of the user's first entry, the one `find` returns |
| Embedded.Upsert | src/routes/album.js:129-137 | A rated caller keeps the length and has only their entry changed; an unrated caller gets exactly one entry appended; every other entry keeps its place and value |
| Embedded.RemoveUser | src/routes/album.js:162-164 | No entry of the caller survives, and exactly the other entries do |
| Embedded.UpsertLookup | src/routes/album.js:129-137 | After rating, the caller's lookup is the new value and every other user's lookup is unchanged |
| Embedded.RemoveLookup | src/routes/album.js:162-164 | After removal the caller has no value and every other user's lookup is unchanged |
| Embedded.UpsertUnique | src/routes/album.js:129-137 | One entry per user before a rating means one entry per user after |
| Embedded.UpsertValid | src/routes/album.js:129-137 | A valid value keeps every entry within [1, 10] |
| Embedded.RemoveUnique | src/routes/album.js:162-164 | Removal keeps one entry per user |
| Embedded.RemoveValid | src/routes/album.js:162-164 | Removal keeps every entry within [1, 10] |
| Embedded.UpsertIdempotent | src/routes/album.js:129-137 | Submitting the same value twice gives the array one submission gives |
| Embedded.RemoveAfterFirstRating | src/routes/song.js:120-149 | Rating and then removing, by a user with no prior entry, restores the original array |
| Embedded.RemoveAbsent | src/routes/album.js:162-164 | Removal by a caller with no entry leaves the array unchanged |
| Embedded.RemoveAppend | src/routes/album.js:162-164 | The filter distributes over appending an entry |
| Embedded.RateEntries | src/routes/album.js:129-137 | With the `{}` caller the first comparison throws, or the pushed entry fails validation when there are none; a known caller with a value in [1, 10] gets that value recorded in the upserted array, every other user's value stays as it was, and uniqueness and bounds are kept |
| Embedded.RemoveEntries | src/routes/album.js:162-164 | With the `{}` caller a non-empty array throws; otherwise the array is filtered of the caller's entries, so the caller has none left and every other user's value stays as it was, and uniqueness and bounds are kept |
| Rateable.New | src/db/models/Album.js:29-32 | A new document has summary 0, no ratings, and satisfies the summary invariant |
| Rateable.UpdateRating | src/db/models/Album.js:72-82 | Only `rating` is written; it is 0 for no entries, otherwise its product with the count is the sum; it lies in [1, 10] for valid entries; the document then satisfies the invariant |
| Rateable.UpdateRatingOrderFree | src/db/models/Album.js:76-80 | Two documents whose entries are permutations of each other get the same summary |
| Rateable.RateDoc | src/routes/album.js:129-140 | Rating succeeds iff the caller is known and the value is in [1, 10]; the entries become the upserted array, so the caller's value becomes the given one and every other user's is kept; the summary is the mean of the new entries; the invariant (one entry per user, valid values, summary = mean) is preserved |
| Rateable.RemoveDoc | src/routes/album.js:162-167 | Removal succeeds iff the caller is known or there are no entries; the entries become the filtered array, so the caller has none and every other user's value is kept; the summary is the mean of the new entries; the invariant is preserved |
| Rateable.Rate | src/routes/album.js:123-145 | A missing document throws; on success only the rated document changes, its entries are the upserted array (other users' values kept) and its summary their mean, the reply carries it with `ratingOfRelevantUser` equal to the submitted value, and a store where every document satisfies the invariant stays so |
| Rateable.RemoveRating | src/routes/album.js:153-169 | A missing document throws; on success only that document changes, its entries are the filtered array (the caller has none left, other users' values kept) and its summary their mean, and the invariant is preserved store-wide |
| Rateable.View | src/routes/album.js:78-89 | Corrected view: found iff the document exists; the relevant-user value is present iff the caller is known and has an entry, and it is the value of the caller's first entry |
| Rateable.ViewAsWritten | src/routes/album.js:81-86 | As written: an anonymous view of a document with ratings throws; otherwise it agrees with `View` |
| Rateable.AnonymousViewFails | src/routes/album.js:82-84 | An anonymous visitor cannot open a rated document as written, while the corrected view shows it without a relevant value |
| Rateable.ViewAfterRate | src/routes/album.js:82-86 | Viewing after rating shows the submitted value |
| Rateable.RateIdempotent | src/routes/album.js:129-140 | Rating twice with the same value leaves the document as one rating did |
| Rateable.RemoveUndoesFirstRate | src/routes/album.js:133-167 | For a document satisfying the invariant, a first rating followed by its removal restores the document exactly, summary included |
| Rateable.TwoRaters | src/routes/album.js:129-167 | A scenario: A rates 8, B rates 6, A changes to 10, A withdraws; the summary goes 8, 7, 8, 6 |
| Albums.NewAlbum | src/db/models/Album.js:22-70 | A new album has a trimmed name, summary 0, no ratings, both flags false, and satisfies the invariant |
| Songs.NewSong | src/db/models/Song.js:22-53 | A new song has a trimmed name, summary 0, no ratings, is not confirmed, and satisfies the invariant |
| Songs.RateAsWritten | src/db/models/Song.js:55-65 | As written, every song rating fails with a ReferenceError |
| Songs.SongRatingLost | src/db/models/Song.js:55 | A rating the corrected handler accepts and reports is lost as written |
| RatingStore.FindOne | src/routes/artist.js:192 | `findOne` returns the first record of (topic id, user id), and none only when there is no such record |
| RatingStore.ForTopic | src/routes/artist.js:206 | `find({ topicId })` returns only records of that topic, in store order |
| RatingStore.ForTopicMembers | src/routes/artist.js:206 | A record is listed iff it is in the store with that topic id |
| RatingStore.Upsert | src/routes/artist.js:192-204 | An invalid value fails validation and writes nothing; an existing record keeps its place, topic and user, and nothing is created; otherwise exactly one `{Artist, topicId, userId, rating}` record is appended; no other record changes |
| RatingStore.Delete | src/routes/artist.js:230 | `findOneAndDelete` removes the first record matching (topic id, user id), and only it, with the rest in order; nothing goes when there is no match |
| RatingStore.UpsertFinds | src/routes/artist.js:192-204 | After rating, the caller's record holds the new value |
| RatingStore.UpsertUnique | src/routes/artist.js:192-204 | One record per (topic id, user id) is preserved by rating |
| RatingStore.UpsertValid | src/db/models/Rating.js:25-30 | Rating keeps every stored value within [1, 10] |
| RatingStore.UpsertIdempotent | src/routes/artist.js:194-196 | Re-submitting the same value writes nothing, not even `updatedAt`, whatever the clock says |
| RatingStore.UpsertOtherTopic | src/routes/artist.js:192-204 | Records of any other topic are untouched by a rating |
| RatingStore.DeleteOtherTopic | src/routes/artist.js:230 | Records of any other topic are untouched by a removal |
| RatingStore.DeleteUnique | src/routes/artist.js:230 | After a removal, uniqueness holds and the caller has no record for the topic |
| RatingStore.DeleteValid | src/routes/artist.js:230 | A removal keeps every value within [1, 10] |
| RatingStore.DeleteUndoesCreate | src/routes/artist.js:197-230 | A first rating undone by a removal leaves the collection as it was |
| Artists.Summary | src/routes/artist.js:206-208 | The artist's summary is the mean over exactly its records: 0 without records, within [1, 10] with valid ones |
| Artists.RatedTopicNotEmpty | src/routes/artist.js:192-206 | After a successful rating the artist has at least one record |
| Artists.RateAsWritten | src/routes/artist.js:186-219 | As written: a valid rating is stored, then the handler throws and the artist document is unchanged |
| Artists.Rate | src/routes/artist.js:186-213 | Corrected: success iff the value is valid and the artist exists; the store is upserted either way; the artist's summary becomes the mean of its records and lies in [1, 10]; the reply carries the submitted value |
| Artists.RemoveAsWritten | src/routes/artist.js:221-236 | As written: the record is deleted, then the handler throws and the artist document is unchanged |
| Artists.Remove | src/routes/artist.js:221-236 | Corrected: the first matching record is deleted and the artist's summary becomes the mean of the remaining records |
| Artists.RelevantRating | src/routes/artist.js:147-149 | `Rating.findOne` gives the caller's value iff they have a record for the artist, and it is that record's value |
| Artists.ViewAsWritten | src/routes/artist.js:142-158 | As written: the view succeeds iff the artist exists and already has a `rating`; otherwise the handler throws a TypeError |
| Artists.View | src/routes/artist.js:142-158 | Corrected: every existing artist is shown, with a rating present (0 when none was ever computed) and the caller's own value; for a summarised artist it agrees with the as-written view |
| Artists.Shown | src/db/models/Album.js:29-32 | The rating shown is the stored summary, or 0, the default the other models declare, when there is none |
| Artists.ListAsWritten | src/routes/artist.js:23-25 | As written: a page is answered iff every artist on it has a `rating`; it is the page itself |
| Artists.List | src/routes/artist.js:14-27 | Corrected: every artist of the page is shown, in order, each with a rating |
| Artists.UnratedArtistFails | src/routes/artist.js:150 | An artist whose `rating` was never set cannot be viewed as written and fails every page holding it, while the corrected view and list show it with 0 |
| Artists.RatedArtistViewable | src/routes/artist.js:206-211 | After the corrected rate handler, the as-written view works and agrees with the corrected one |
| Artists.ListOfRated | src/routes/artist.js:23-25 | On a page of summarised artists the corrected list is the identity and the as-written list succeeds with it |
| Artists.ArtistRatingNotSummarised | src/routes/artist.js:206-208 | Both versions write the same records, but as written the summary is stale and the caller gets an error |
| Artists.RateKeepsOtherSummaries | src/routes/artist.js:192-208 | Rating one artist never changes another artist's summary |
| Artists.RemoveKeepsOtherSummaries | src/routes/artist.js:230-234 | Removing a rating of one artist never changes another artist's summary |
| Artists.RateIdempotent | src/routes/artist.js:192-208 | Rating twice with the same value leaves the collection and the artists as one rating did |
| Artists.FirstBy | src/routes/artist.js:111-113 | `ratings.find` gives the first record of that user |
| Artists.Found | src/routes/artist.js:106-108 | The users listed are exactly those with a record for the artist |
| Artists.Project | src/routes/artist.js:115-131 | Every entry carries rating, timestamps and `isPrivate`; username and avatar are present iff the user is not private |
| Artists.RatingsList | src/routes/artist.js:103-134 | One entry per found user, built from that user's first record for the artist; name and avatar withheld exactly for private users |
| Artists.ListedRatingsBelong | src/routes/artist.js:106-117 | Every listed value is the value of a record of that artist |
| Slug.Transliterate | src/utils/slugify.js:5-10 | Letters and digits are kept as they are; a character that is changed becomes a lower-case ASCII letter (ç→c, ğ→g, ı→i, ö→o, ş→s, ü→u) |
| Slug.Strip | src/utils/slugify.js:11 | Only characters of `[a-z0-9 -]` survive |
| Slug.ReplaceRunsShape | src/utils/slugify.js:12-13 | After replacing runs, no run character survives and a '-' standing for a run is never followed by another run character |
| Slug.RunBecomesOneHyphen | src/utils/slugify.js:12-13 | A maximal run becomes exactly one '-' |
| Slug.SlugifyIsSlug | src/utils/slugify.js:11-13 | Every slug is made of `[a-z0-9-]` only (so no spaces) and never has two hyphens in a row |
| Slug.AlnumsOfSlug | src/utils/slugify.js:3-11 | The letters and digits of a slug are the input's ASCII letters (lower-cased), digits and transliterated Turkish letters, in their original order |
| Slug.SlugifyFixesSlugs | src/utils/slugify.js:2-13 | A well-formed slug is its own slug |
| Slug.SlugifyIdempotent | src/utils/slugify.js:2-13 | slugify(slugify(s)) = slugify(s) |
| Slug.SlugifyIgnoresSurroundingSpace | src/utils/slugify.js:4 | White space around the input does not change the slug |
| Slug.SlugOfEmpty | src/utils/slugify.js:2-13 | The empty name gives the empty slug |
| Slug.SlugOfDropped | src/utils/slugify.js:11 | A name with no surviving character gives "" |
| Slug.SlugLeadingHyphen | src/utils/slugify.js:4-13 | A dropped character followed by a space and a word leaves a leading '-' ("é abc" gives "-abc") |
| Slug.SingleLetter | src/utils/slugify.js:3-11 | A one-character name slugifies to its lower-cased, transliterated letter |
| Slug.TurkishLetter | src/utils/slugify.js:5-10 | Each of the twelve Turkish letters slugifies to its ASCII letter |
| Text.Lower | src/utils/slugify.js:3 | `toLowerCase` leaves no ASCII upper-case letter |
| Text.LowerIdempotent | src/utils/slugify.js:3 | Lower-casing twice is lower-casing once |
| Text.Trim | src/utils/slugify.js:4 | `trim` leaves no white space at either end |
| Text.TrimOfTrimmed | src/utils/slugify.js:4 | A string without white space at its ends is its own trim |
| Text.IndexOf | src/middlewares/identifyUser.js:6 | The first occurrence of the pattern, or none when it occurs nowhere |
| Text.RemoveFirst | src/middlewares/identifyUser.js:6 | `replace` with a string pattern removes only its first occurrence |
| Text.RemoveLeadingPattern | src/middlewares/identifyUser.js:6 | "Bearer " followed by a token gives back the token |
| Comments.Post | src/routes/comment.js:40-52 | Missing or empty content fails with "No comment written."; otherwise the schema decides: an anonymous (`{}`) caller, a missing topic id or an unknown topic fail validation; on success exactly one comment, owned by the caller, with no likes, is added and nothing else changes |
| Comments.Delete | src/routes/comment.js:71-80 | Succeeds iff the comment exists and is the caller's; otherwise "Comment not found." and nothing is deleted |
| Comments.Without | src/routes/comment.js:122-124 | Every occurrence of the user is removed and exactly the other ids remain |
| Comments.Like | src/routes/comment.js:93-101 | The caller is appended unconditionally, `likeCount` equals the list length, and nothing else changes; an unknown id fails with "Comment not found" |
| Comments.Unlike | src/routes/comment.js:116-126 | The caller is no longer in the list, the count equals the length, and nothing else changes |
| Comments.WithoutAbsent | src/routes/comment.js:122-124 | Filtering out an absent user changes nothing |
| Comments.WithoutAppend | src/routes/comment.js:122-124 | The filter distributes over appending an id |
| Comments.LikeThenUnlike | src/routes/comment.js:99-125 | Like then unlike, by a caller who had not liked, restores the comment |
| Comments.LikeTwice | src/routes/comment.js:99-100 | Likes are not deduplicated: liking twice adds two to the count |
| Comments.UnlikeIdempotent | src/routes/comment.js:122-125 | Unliking twice is unliking once |
| Comments.LikeAsWritten | src/routes/comment.js:99-100 | As written, liking an existing comment throws |
| Comments.UnlikeAsWritten | src/routes/comment.js:122-124 | As written, unliking an existing comment throws |
| Comments.LikeLost | src/routes/comment.js:99-125 | As written both requests fail; corrected, the like is recorded and the unlike removes it |
| Comments.UpperChar | src/routes/comment.js:11 | An ASCII lower-case letter becomes its capital; any other character is kept |
| Comments.Capitalize | src/routes/comment.js:11 | Only the first character is upper-cased; the rest is unchanged |
| Comments.CapitalizeIdempotent | src/routes/comment.js:11 | Capitalising twice is capitalising once |
| Comments.CapitalizeTopics | src/routes/comment.js:10-13 | "artist", "album" and "song" become the stored topics |
| Patterns.PatternGivesShape | src/middlewares/validateRegister.js:7 | A string the e-mail pattern accepts has exactly one '@', not first, no white space, and a '.' after the '@' with text on both sides |
| Patterns.ShapeGivesPattern | src/middlewares/validateRegister.js:7 | Conversely, every string of that shape matches the pattern |
| Patterns.EmailPatternIff | src/middlewares/validateRegister.js:7 | The pattern accepts exactly the strings of that shape |
| Register.Validate | src/middlewares/validateRegister.js:9-39 | `next()` iff every check passes; otherwise a 400 "Failed" whose message is that of the first failing check, in the fixed order fields, username, e-mail, confirmation, username taken, e-mail taken |
| Register.AcceptedShape | src/middlewares/validateRegister.js:6-21 | An accepted username uses only `[a-z0-9_]`, and an accepted e-mail has the shape above |
| Numbers.DecimalValue | src/middlewares/paginateArtists.js:15-17 | A decimal spelling reads back as its number |
| Numbers.ToNumber | src/middlewares/paginateArtists.js:15-17 | `Number` ignores surrounding white space, reads "" as 0 and a digit string as its value |
| Numbers.ToNumberOfDecimal | src/middlewares/paginateArtists.js:15-17 | The spelling of any integer, signed if negative, reads back as that integer |
| Numbers.DateSuffixIsNaN | src/middlewares/paginateSongs.js:21-23 | Any string ending in "-01-01" is NaN |
| Numbers.Param | src/middlewares/paginateArtists.js:5-17 | An absent parameter takes its default; a present one is converted |
| Numbers.PageCount | src/routes/artist.js:20-21 | `Math.ceil(count / limit)`: no finite value for a zero or NaN limit; otherwise the least integer not below `count / limit`, which for a positive limit is the least number of pages that covers `count` |
| Numbers.PageWithinCount | src/routes/album.js:21-26 | The page starting at `(page - 1) * limit` holds items iff `page <= pageCount` |
| Pagination.SortOrder | src/middlewares/paginateArtists.js:32 | Ascending iff "Oldest", descending otherwise |
| Pagination.ArtistSortField | src/middlewares/paginateArtists.js:28-31 | Year→foundationYear, Rating→rating, Popularity→ratingCount, anything else→createdAt, each both ways |
| Pagination.AlbumSortField | src/middlewares/paginateAlbums.js:35-38 | Year→releaseDate, Rating→rating, Popularity→ratingCount, anything else→createdAt |
| Pagination.SongSortField | src/middlewares/paginateSongs.js:36-38 | Year→releaseDate, Rating→rating, anything else, "Popularity" included, →createdAt |
| Pagination.GenreFilter | src/middlewares/paginateArtists.js:26 | The genre filter is present iff the genre is not "All", and is that genre |
| Pagination.SplitDash | src/middlewares/paginateArtists.js:18-19 | `split("-")` yields at least one part and no part contains '-' |
| Pagination.SplitOfRange | src/middlewares/paginateArtists.js:18-19 | "A-B" splits into A and B |
| Pagination.YearRange | src/middlewares/paginateArtists.js:18-19 | "All" gives 1900 to the current year |
| Pagination.YearRangeOfDecimals | src/middlewares/paginateArtists.js:18-23 | "A-B" with decimal years gives the range [A, B] |
| Pagination.Window | src/middlewares/paginateArtists.js:15-37 | The limit is passed through; with no parameters the window starts at 0 |
| Pagination.WindowOfDecimals | src/middlewares/paginateArtists.js:15-37 | Decimal page and limit give skip `(page - 1) * limit` |
| Pagination.Artists | src/middlewares/paginateArtists.js:5-37 | Limit 10 by default, a search on `name`, the year range, rating at least the requested value, the genre filter, and the sort |
| Pagination.Albums | src/middlewares/paginateAlbums.js:5-44 | Limit 16 by default, a search over exactly `name` and `artistRefName`, the year range, the rating and genre filters, and the sort |
| Pagination.Songs | src/middlewares/paginateSongs.js:5-44 | Corrected: limit 30 by default, a search over `name`, `albumRefName` and `artistRefName`, the album list's year range, the rating and genre filters, and the sort |
| Pagination.Defaults | src/middlewares/paginateArtists.js:5-13 | With no parameters: first page, each list's page size, no genre filter, rating at least 0, newest first |
| Pagination.PopularityDiffers | src/middlewares/paginateSongs.js:36-38 | "Popularity" sorts albums by `ratingCount` but songs by `createdAt` |
| Pagination.SongYearsAsWritten | src/middlewares/paginateSongs.js:18-23 | As written, every year range other than "All" gives NaN bounds |
| Pagination.SongYearsLost | src/middlewares/paginateSongs.js:18-23 | A well-formed "A-B" gives songs NaN bounds while it gives the other lists [A, B] |
| Middleware.SetLang | src/middlewares/setLang.js:2-3 | The first truthy of the query parameter and the header, else "en", lower-cased; a non-empty query wins over the header; no upper-case letter remains |
| Middleware.SetLangStable | src/middlewares/setLang.js:2-3 | Feeding the chosen language back in as the query gives it again |
| Middleware.FirstWithId | src/middlewares/identifyUser.js:8-10 | The first user with the decoded id, none only if there is no such user |
| Middleware.Identify | src/middlewares/identifyUser.js:4-22 | `req.user` is always set; it is a user iff the header is present, the stripped token verifies and a user has its id, and then it is the first such user; otherwise it is `{}` |
| Middleware.IdentifyBearer | src/middlewares/identifyUser.js:6 | For "Bearer " + token, a found user has the id that token carries |
| Middleware.Authenticate | src/middlewares/authenticate.js:1-14 | `next()` iff `req.user` is set; otherwise exactly a 401 "Failed" "Please login" |
| Middleware.AuthenticateAfterIdentify | src/middlewares/identifyUser.js:18-20 | After identifyUser the gate never rejects, because `{}` is truthy |
| Upload.FileFilter | src/utils/multer.js:8-16 | One callback: accept iff the lower-cased extension is .jpg, .jpeg or .png; a refusal carries the error message |
| Upload.FileFilterIgnoresCase | src/utils/multer.js:9 | An extension and its lower-case form get the same decision |
| Upload.UpperCaseAccepted | src/utils/multer.js:9-11 | ".PNG" is accepted |
| Upload.MixedCaseAccepted | src/utils/multer.js:9-11 | ".JpEg" is accepted |
| Upload.OthersRefused | src/utils/multer.js:11-13 | Other extensions, other image formats included, are refused |
| Users.NewUser | src/db/models/User.js:11-60 | Role User, not activated, public, not deleted, no code, e-mail and username trimmed |
| Users.ToJson | src/db/models/User.js:62-68 | The projection has neither `password` nor `isDeleted` and keeps every other field with its value |
| Users.ToJsonIdempotent | src/db/models/User.js:62-68 | Projecting twice is projecting once |
| Users.FirstMatch | src/db/models/User.js:80-82 | The first user whose e-mail (or username) is the identifier |
| Users.FindByCredentials | src/db/models/User.js:76-94 | Looked up by e-mail iff the untrimmed identifier matches the e-mail pattern, otherwise by username, in either case comparing the stored field with the trimmed identifier (the schema's `trim` setter applies to queries); success iff a user is found and the password matches; every failure is "Invalid username or password" |
| Users.FailedLoginRevealsNothing | src/db/models/User.js:84-91 | A failed login is identical to a login against no users, so a wrong password reads as an unknown user |
| Users.PaddedLoginNotEmail | src/db/models/User.js:77-78 | An identifier with white space at either end never matches the e-mail pattern, so a padded e-mail address is looked up among usernames |
| Users.UsernameLoginIgnoresPadding | src/db/models/User.js:76-82 | For an identifier that is not e-mail shaped, surrounding white space does not change the outcome |
| Users.PreSave | src/db/models/User.js:96-107 | A code is assigned when the document is new and only then; the password is replaced by its hash iff modified; nothing else changes |
| Users.ResaveKeepsSecrets | src/db/models/User.js:99-105 | Saving a saved user again without changes neither re-hashes nor re-codes |
| Users.CodeFrom | src/db/models/User.js:113-115 | Each character is the alphabet character at `floor(draw * 62)` |
| Users.GenerateActivationCode | src/db/models/User.js:109-117 | The code has the requested length (6 by default, empty for a negative length), and every character is from the 62-character alphabet |
| Users.EveryCodeReachable | src/db/models/User.js:110-114 | Every string over the alphabet is produced by some valid draws |
| EmailUsers.NewUser | src/db/models/user.js:11-56 | Role User, not deleted; e-mail, username, name and surname trimmed |
| EmailUsers.EmailError | src/db/models/user.js:18-21 | The e-mail is refused iff `isEmail` fails, with "Please enter a valid email" |
| EmailUsers.PasswordError | src/db/models/user.js:32-35 | A password is accepted iff its length is within 8 to 16; otherwise "Password length must be 8-16 characters" |
| EmailUsers.PasswordBounds | src/db/models/user.js:32-35 | The bounds are inclusive: 8 and 16 pass, 7 and 17 fail |
| EmailUsers.ToJson | src/db/models/user.js:58-63 | Only `password` is removed; `isDeleted` stays visible |
| EmailUsers.ToJsonIdempotent | src/db/models/user.js:58-63 | Projecting twice is projecting once |
| EmailUsers.FirstWithEmail | src/db/models/user.js:72 | The first user with that e-mail |
| EmailUsers.FindByCredentials | src/db/models/user.js:71-83 | Success iff the first user whose e-mail equals the trimmed given one (the schema's `trim` setter applies to queries) exists, is not deleted and the password matches; every failure is "Invalid email or password" |
| EmailUsers.DeletedCannotLogin | src/db/models/user.js:74-76 | A deleted account with a unique e-mail cannot log in, whatever the password and however the e-mail is padded |
| EmailUsers.LoginIgnoresPadding | src/db/models/user.js:13-17 | White space around the e-mail given at login does not change the outcome |
| EmailUsers.FailedLoginRevealsNothing | src/db/models/user.js:74-81 | A failed login is identical to a login against no users |
| EmailUsers.PreSave | src/db/models/user.js:85-91 | The password is replaced by its hash iff modified; nothing else changes |
| EmailUsers.ResaveKeepsHash | src/db/models/user.js:85-91 | Saving again without touching the password does not re-hash it |

## Left out

- Database and network I/O are out: Mongoose queries and saves, Cloudinary uploads, e-mail sending and JWT signing (`generateAuthToken`). Stores are in-memory maps and sequences.
- Concurrent requests are out. The read-modify-write rating handlers have no locking, and each request is modelled as one atomic step.
- `toFixed(1)` display rounding is out. Summaries are exact reals, not IEEE doubles. The throw of `toFixed` on an absent artist `rating` is modelled (`Artists.ViewAsWritten`, `Artists.ListAsWritten`).
- `bcrypt`, `jwt.verify`, `validator.isEmail`, `Math.random`, `moment().year()` and the database's id assignment are parameters.
- The following handlers are not modelled beyond what the rows above cover:
  - the similar and overview routes;
  - the album and song list and most-rated routes, whose `toFixed` is given a defaulted `rating` and therefore only rounds;
  - the comment listing, except its topic capitalisation (`Comments.Capitalize`);
  - the create routes for artists, albums and songs;
  - the user routes and the e-mail templates.
- Artists.View, Artists.List: the `toFixed` rounding and the string it produces in the lists are not modelled, and a shown rating is the stored value. The throw on an absent `rating` is modelled.
- Artists.View: the caller is a known user id. With the `{}` caller, `Rating.findOne` gets an undefined `userId` (see `Artists.Rate`).
- Ids are well-formed ObjectIds. A malformed `:id` or `topicId` makes Mongoose's `findOne` reject with a CastError before anything is written; the model has no such case. For an unknown but well-formed artist id, `Artists.Rate` writes the Rating record first and then fails, as the code does.
- Slugs are not made unique and no schema declares `ratingCount`. Sorting by `ratingCount` only passes the field name through, so nothing maintains a count.
- Registration fields and comment content are modelled as strings or absent. Non-string JSON values (numbers, objects, arrays) there are out.
- The rating value is modelled as a number (`v: real`). A string rating, which Mongoose would cast, is out. So is an absent rating, which fails the `required` check of src/db/models/Album.js:12-17 and ends in a validation error.
- Query parameters are modelled as single strings or absent. A repeated parameter becomes an array, and `year.split` then throws (src/middlewares/paginateArtists.js:18). That case is out.
- Exact Mongoose validation messages are out. They appear as `ValidationFault`, and an out-of-range rating value is such a failure.
- Artists.Rate: the caller is a known user id. With identifyUser's `{}` fallback, `userId` is undefined, and the Rating query's behaviour then depends on how Mongoose treats undefined filter values.
- Artists.Remove: the same restriction on the caller as `Artists.Rate`.
- Comments.Post: the user lookup that decorates the reply with username and avatar (src/routes/comment.js:54-59) is out.
- Comments.Delete, Comments.Like, Comments.Unlike: the caller is a known user id, for the same reason as `Artists.Rate`.
- The comment router is not mounted in src/routes/index.js, so none of the comment handlers is reachable as the code stands. They are modelled as written.
- Comments.Like: `likeCount` is kept next to the list as the handlers intend. Comment.js declares neither `likes` nor `likeCount`, so even with `likes` renamed to `likedBy` the count would be neither saved nor sent.
- Numbers.ToNumber: only integers are modelled. `Number` of decimal fractions, exponents, hexadecimal or "Infinity" is a number in JavaScript but NaN here. Decimal page, limit and year parameters are exact up to 2^53; beyond that `Number` and the `page * limit` product round to the nearest double, which is not modelled.
- Pagination.Albums: release dates are modelled by their year numbers, and moment's date parsing is not modelled. The model agrees with moment only for four-digit years, which moment parses as ISO dates. Other spellings ("999", "12345") make moment fall back to the `Date` constructor. The upper bound for "All" is `moment()`, the current instant, and it is coarsened to the current year. The end-of-year upper bound is likewise coarsened to the year.
- Pagination.Songs: the same year-number approximation as `Pagination.Albums`.
- Text.Lower: lower-cases ASCII, the Turkish capitals, U+0130 (to "i̇") and the Kelvin sign. Every other non-ASCII character is left as it is, so the slug alphabet is exact but other upper-case letters are not lowered.
- Comments.UpperChar: upper-cases ASCII letters only.
- EmailUsers.PasswordError: the length is counted in Unicode scalar values. `validator.isLength` also folds presentation sequences.
- Users.FindByCredentials: a stored password is always present. The schema's `require: true` is not a Mongoose option, so a user without a password could exist, and `bcrypt.compare` would then throw a different error.
- Users.GenerateActivationCode: the length is an integer, and a non-numeric length is out.
- Middleware.Identify: a user record is found by id alone. The `isDeleted` or `isActivated` state is not consulted, because the code does not consult it either.

## Findings

| source | as written | input that shows it | evidently intended | confidence | as-written member | corrected member |
|---|---|---|---|---|---|---|
| src/db/models/Song.js:55 | The recompute is attached to `ArtistSchema`, which Song.js never declares, so loading the file throws a ReferenceError; the router chain loads it at start-up, so the server never starts | starting the server; for the model, any song rating, e.g. a valid value 7 for an existing song | `SongSchema.methods.updateRating`, the same mean as albums | not executed; high | Songs.RateAsWritten (shown by Songs.SongRatingLost) | Rateable.Rate |
| src/routes/artist.js:207 | `artist.updateRating(artistRatings)` calls a method Artist.js does not define, after the Rating record was written | rating an existing artist with 8 | the artist's summary becomes the mean of its records | not executed; high | Artists.RateAsWritten (shown by Artists.ArtistRatingNotSummarised) | Artists.Rate |
| src/routes/artist.js:150 | `artist.rating.toFixed(1)`, while Artist.js:13-15 gives `rating` no default and the recompute never runs (artist.js:207), so viewing an unrated artist throws; lines 24 and 42 fail every page that holds one | opening, or listing, an artist no rating was ever summarised for | the artist shown with rating 0, as albums and songs default it | not executed; high | Artists.ViewAsWritten, Artists.ListAsWritten (shown by Artists.UnratedArtistFails) | Artists.View, Artists.List |
| src/routes/artist.js:233 | the same missing method after a rating was deleted | removing one's rating of an existing artist | the summary recomputed from the remaining records | not executed; high | Artists.RemoveAsWritten | Artists.Remove |
| src/routes/album.js:83 | `req.user?._id.toString()` calls `toString` on undefined when identifyUser left `{}`, so an anonymous view of a rated album throws (song.js:81 repeats it) | a visitor without a token opening an album with one rating | the album shown with no relevant-user value | not executed; high | Rateable.ViewAsWritten (shown by Rateable.AnonymousViewFails) | Rateable.View |
| src/routes/comment.js:99 | the handler spreads `comment.likes`, but the schema declares `likedBy` (src/db/models/Comment.js:16-18), so the spread throws; `likeCount` is not declared either, so the count would not be stored | liking any existing comment | the caller appended to `likedBy`, with a declared count kept next to it | not executed; medium | Comments.LikeAsWritten (shown by Comments.LikeLost) | Comments.Like |
| src/routes/comment.js:122 | `filter` is called on the same undeclared `comment.likes` | unliking any existing comment | every like of the caller removed | not executed; medium | Comments.UnlikeAsWritten (shown by Comments.LikeLost) | Comments.Unlike |
| src/middlewares/paginateSongs.js:21 | each year bound is `Number` of a date string such as "2000-01-01", which is NaN, before it reaches `moment` (line 23 likewise) | `year=2000-2010` | the range [2000, 2010], as paginateAlbums.js:18-23 builds it | not executed; high | Pagination.SongYearsAsWritten (shown by Pagination.SongYearsLost) | Pagination.Songs |

=== FILE: aggregate.dfy ===
/** The rating summary every rateable document keeps: the mean of the
    individual rating values, or 0 when there are none. Album.js and Song.js
    compute it over the embedded array; the artist route over the records
    of the normalized Rating collection. */
module Aggregate {

  /** The bounds the three rating schemas put on a value: a required Number
      with `min: 1` and `max: 10`, not necessarily an integer. */
  predicate ValidRating(v: real) {
    1.0 <= v <= 10.0
  }

  /** Sum of `value(x)` over `xs`, folded from the left as `reduce` does. */
  function Sum<T>(xs: seq<T>, value: T -> real): real {
    if xs == [] then 0.0 else Sum(xs[..|xs| - 1], value) + value(xs[|xs| - 1])
  }

  /** The recomputed summary: 0 for no ratings, otherwise sum / count. */
  function Mean<T>(xs: seq<T>, value: T -> real): (m: real)
    ensures xs == [] ==> m == 0.0
    ensures xs != [] ==> m * (|xs| as real) == Sum(xs, value)
  {
    if |xs| == 0 then 0.0 else Sum(xs, value) / (|xs| as real)
  }

  lemma {:induction false} SumAppend<T>(a: seq<T>, b: seq<T>, value: T -> real)
    ensures Sum(a + b, value) == Sum(a, value) + Sum(b, value)
    decreases |b|
  {
    if b == [] {
      assert a + b == a;
    } else {
      var ab := a + b;
      assert ab[..|ab| - 1] == a + b[..|b| - 1];
      assert ab[|ab| - 1] == b[|b| - 1];
      SumAppend(a, b[..|b| - 1], value);
    }
  }

  lemma {:induction false} SumOfOne<T>(x: T, value: T -> real)
    ensures Sum([x], value) == value(x)
  {
    assert [x][..0] == [];
  }

  /** Reordering the values does not change their sum. */
  lemma {:induction false} SumPermutation<T>(a: seq<T>, b: seq<T>, value: T -> real)
    requires multiset(a) == multiset(b)
    ensures Sum(a, value) == Sum(b, value)
    decreases |a|
  {
    if a != [] {
      var x := a[0];
      assert x in multiset(b);
      var k :| 0 <= k < |b| && b[k] == x;
      var rest := b[..k] + b[k + 1..];
      assert b == b[..k] + [x] + b[k + 1..];
      assert a == [x] + a[1..];
      assert multiset(a[1..]) == multiset(rest) by {
        calc {
          multiset(a[1..]);
          multiset(a) - multiset{x};
          multiset(b[..k] + [x] + b[k + 1..]) - multiset{x};
          multiset(rest);
        }
      }
      SumPermutation(a[1..], rest, value);
      SumAppend([x], a[1..], value);
      SumOfOne(x, value);
      SumAppend(b[..k] + [x], b[k + 1..], value);
      SumAppend(b[..k], [x], value);
      SumAppend(b[..k], b[k + 1..], value);
    }
  }

  /** The mean does not depend on the order of the ratings. */
  lemma MeanPermutation<T>(a: seq<T>, b: seq<T>, value: T -> real)
    requires multiset(a) == multiset(b)
    ensures Mean(a, value) == Mean(b, value)
  {
    assert |a| == |multiset(a)| == |multiset(b)| == |b|;
    SumPermutation(a, b, value);
  }

  lemma {:induction false} SumBounds<T>(xs: seq<T>, value: T -> real)
    requires forall i :: 0 <= i < |xs| ==> ValidRating(value(xs[i]))
    ensures (|xs| as real) <= Sum(xs, value) <= 10.0 * (|xs| as real)
    decreases |xs|
  {
    if xs != [] {
      var init := xs[..|xs| - 1];
      assert forall i :: 0 <= i < |init| ==> init[i] == xs[i];
      SumBounds(init, value);
      assert ValidRating(value(xs[|xs| - 1]));
    }
  }

  lemma PositiveFactor(a: real, n: real)
    requires n > 0.0 && a * n >= 0.0
    ensures a >= 0.0
  {
  }

  /** With every value in [1, 10] and at least one of them, the mean is in
      [1, 10] too. */
  lemma MeanInRange<T>(xs: seq<T>, value: T -> real)
    requires xs != []
    requires forall i :: 0 <= i < |xs| ==> ValidRating(value(xs[i]))
    ensures ValidRating(Mean(xs, value))
  {
    SumBounds(xs, value);
    var n := |xs| as real;
    var m := Mean(xs, value);
    assert m * n == Sum(xs, value);
    PositiveFactor(m - 1.0, n);
    PositiveFactor(10.0 - m, n);
  }
}

=== FILE: albums.dfy ===
/** Album documents (Album.js): the fields the rating handlers leave alone
    and the schema defaults of a new album. */
module Albums {
  import opened Ids
  import opened Text
  import opened Rateable

  datatype AlbumInfo = AlbumInfo(
    name: string,
    genres: seq<string>,
    artistRefObjectId: Id,
    artistRefName: string,
    isConfirmed: bool,
    isComplete: bool)

  type Album = Doc<AlbumInfo>

  /** A new album: the name is trimmed by the schema, `rating` defaults to
      0, both flags to false, and the summary invariant holds. */
  function NewAlbum(name: string, genres: seq<string>, artist: Id, artistName: string): (a: Album)
    ensures a.rating == 0.0 && a.ratings == [] && Sound(a)
    ensures !a.info.isConfirmed && !a.info.isComplete
    ensures a.info.name == [] || (!IsSpace(a.info.name[0]) && !IsSpace(a.info.name[|a.info.name| - 1]))
    ensures a.info.genres == genres && a.info.artistRefObjectId == artist
  {
    New(AlbumInfo(Trim(name), genres, artist, artistName, false, false))
  }
}

=== FILE: artists.dfy ===
/** The artist rating handlers of routes/artist.js, which keep individual
    ratings in the normalized Rating collection and a summary on the artist
    document, and the public `/ratings/:id` listing. */
module Artists {
  import opened Wrappers
  import opened Ids
  import opened Aggregate
  import opened RatingStore

  /** Artist.js: `rating` has no default, so it is absent until the first
      recompute. */
  datatype ArtistDoc = ArtistDoc(
    name: string,
    genre: string,
    subGenres: seq<string>,
    isConfirmed: bool,
    rating: Option<real>)

  datatype ArtistReply = ArtistReply(artist: ArtistDoc, ratingOfRelevantUser: Option<real>)

  /** A handler can fail after writing to the Rating collection, so the
      outcome carries both stores and the reply. */
  datatype Outcome = Outcome(
    store: seq<Record>,
    artists: map<Id, ArtistDoc>,
    reply: Result<ArtistReply, Fault>)

  /** The summary an artist should carry: the mean of every record whose
      `topicId` is the artist's id. */
  function Summary(store: seq<Record>, id: Id): (m: real)
    ensures ForTopic(store, id) == [] ==> m == 0.0
    ensures ForTopic(store, id) != [] && AllValid(store) ==> ValidRating(m)
  {
    var recs := ForTopic(store, id);
    assert recs != [] && AllValid(store) ==> ValidRating(Mean(recs, Value)) by {
      if recs != [] && AllValid(store) {
        assert forall i :: 0 <= i < |recs| ==> ValidRating(Value(recs[i])) by {
          forall i | 0 <= i < |recs|
            ensures ValidRating(Value(recs[i]))
          {
            ForTopicMembers(store, id, recs[i]);
          }
        }
        MeanInRange(recs, Value);
      }
    }
    Mean(recs, Value)
  }

  /** After a successful rate the artist has at least one record. */
  lemma RatedTopicNotEmpty(store: seq<Record>, id: Id, u: Id, v: real, now: int)
    requires ValidRating(v)
    ensures ForTopic(Upsert(store, id, u, v, now).value, id) != []
  {
    var s := Upsert(store, id, u, v, now).value;
    UpsertFinds(store, id, u, v, now);
    ForTopicMembers(s, id, s[FindOne(s, id, u).value]);
  }

  /** POST /rate/:id as written: the Rating collection is written, then
      `artist.updateRating` is called, which Artist.js does not define, so
      the handler throws and the summary is never updated. This is the
      handler's behaviour once Song.js loads (see `Songs.RateAsWritten`). */
  function RateAsWritten(store: seq<Record>, artists: map<Id, ArtistDoc>, id: Id, u: Id, v: real, now: int)
    : (o: Outcome)
    ensures o.reply.Failure? && o.artists == artists
    ensures ValidRating(v) ==> o.store == Upsert(store, id, u, v, now).value && o.reply.error == TypeFault
    ensures !ValidRating(v) ==> o.store == store && o.reply.error == ValidationFault
  {
    match Upsert(store, id, u, v, now)
    case Failure(e) => Outcome(store, artists, Failure(e))
    case Success(s) => Outcome(s, artists, Failure(TypeFault))
  }

  /** POST /rate/:id with the recompute the handler expects: the summary
      becomes the mean of the artist's records. A missing artist still
      makes the handler throw after the Rating collection was written. */
  function Rate(store: seq<Record>, artists: map<Id, ArtistDoc>, id: Id, u: Id, v: real, now: int)
    : (o: Outcome)
    ensures o.reply.Success? <==> ValidRating(v) && id in artists
    ensures o.store == if ValidRating(v) then Upsert(store, id, u, v, now).value else store
    ensures o.reply.Failure? ==> o.artists == artists
    ensures o.reply.Success? ==>
      o.reply.value.ratingOfRelevantUser == Some(v) &&
      o.reply.value.artist == artists[id].(rating := Some(Summary(o.store, id))) &&
      o.artists == artists[id := o.reply.value.artist]
    ensures o.reply.Success? && AllValid(store) ==> ValidRating(o.reply.value.artist.rating.value)
  {
    match Upsert(store, id, u, v, now)
    case Failure(e) => Outcome(store, artists, Failure(e))
    case Success(s) =>
      if id !in artists then Outcome(s, artists, Failure(TypeFault))
      else
        assert AllValid(store) ==> ValidRating(Summary(s, id)) by {
          if AllValid(store) {
            UpsertValid(store, id, u, v, now);
            RatedTopicNotEmpty(store, id, u, v, now);
          }
        }
        var a := artists[id].(rating := Some(Summary(s, id)));
        Outcome(s, artists[id := a], Success(ArtistReply(a, Some(v))))
  }

  /** DELETE /removeRating/:id as written: the record is deleted, then the
      missing `updateRating` throws (again once Song.js loads). */
  function RemoveAsWritten(store: seq<Record>, artists: map<Id, ArtistDoc>, id: Id, u: Id)
    : (o: Outcome)
    ensures o.reply == Failure(TypeFault) && o.artists == artists
    ensures o.store == Delete(store, id, u)
  {
    Outcome(Delete(store, id, u), artists, Failure(TypeFault))
  }

  /** DELETE /removeRating/:id with the expected recompute. */
  function Remove(store: seq<Record>, artists: map<Id, ArtistDoc>, id: Id, u: Id)
    : (o: Outcome)
    ensures o.reply.Success? <==> id in artists
    ensures o.store == Delete(store, id, u)
    ensures o.reply.Failure? ==> o.reply.error == TypeFault && o.artists == artists
    ensures o.reply.Success? ==>
      o.reply.value.ratingOfRelevantUser == None &&
      o.reply.value.artist == artists[id].(rating := Some(Summary(o.store, id))) &&
      o.artists == artists[id := o.reply.value.artist]
    ensures o.reply.Success? && AllValid(store) && ForTopic(o.store, id) != [] ==>
      ValidRating(o.reply.value.artist.rating.value)
  {
    var s := Delete(store, id, u);
    if id !in artists then Outcome(s, artists, Failure(TypeFault))
    else
      assert AllValid(store) ==> AllValid(s) by {
        if AllValid(store) { DeleteValid(store, id, u); }
      }
      var a := artists[id].(rating := Some(Summary(s, id)));
      Outcome(s, artists[id := a], Success(ArtistReply(a, None)))
  }

  /** The discrepancy: both versions write the same records, but as written
      the artist's summary is stale and the caller gets an error. */
  lemma ArtistRatingNotSummarised(store: seq<Record>, artists: map<Id, ArtistDoc>, id: Id, u: Id, v: real, now: int)
    requires ValidRating(v) && id in artists
    ensures RateAsWritten(store, artists, id, u, v, now).store == Rate(store, artists, id, u, v, now).store
    ensures RateAsWritten(store, artists, id, u, v, now).artists[id] == artists[id]
    ensures RateAsWritten(store, artists, id, u, v, now).reply == Failure(TypeFault)
    ensures Rate(store, artists, id, u, v, now).reply.Success?
  {
  }

  /** Rating an artist never changes what another artist's summary is
      computed from. */
  lemma RateKeepsOtherSummaries(store: seq<Record>, artists: map<Id, ArtistDoc>, id: Id, u: Id, v: real, now: int, other: Id)
    requires other != id
    ensures Summary(Rate(store, artists, id, u, v, now).store, other) == Summary(store, other)
  {
    if ValidRating(v) {
      UpsertOtherTopic(store, id, u, v, now, other);
    }
  }

  lemma RemoveKeepsOtherSummaries(store: seq<Record>, artists: map<Id, ArtistDoc>, id: Id, u: Id, other: Id)
    requires other != id
    ensures Summary(Remove(store, artists, id, u).store, other) == Summary(store, other)
  {
    DeleteOtherTopic(store, id, u, other);
  }

  /** Rating twice with the same value leaves store and summary as one
      rating did. */
  lemma RateIdempotent(store: seq<Record>, artists: map<Id, ArtistDoc>, id: Id, u: Id, v: real, now: int, later: int)
    requires ValidRating(v)
    ensures var o := Rate(store, artists, id, u, v, now);
      Rate(o.store, o.artists, id, u, v, later).store == o.store &&
      Rate(o.store, o.artists, id, u, v, later).artists == o.artists
  {
    UpsertIdempotent(store, id, u, v, now, later);
  }

  /** The fields of a User document the listing reads. */
  datatype Rater = Rater(id: Id, username: string, avatar: Option<string>, isPrivate: bool)

  datatype Profile = Profile(username: string, avatar: Option<string>)

  /** One listing entry; `profile` stands for the username and avatar
      fields, which are present together or not at all. */
  datatype RatingView = RatingView(
    profile: Option<Profile>,
    rating: real,
    createdAt: int,
    updatedAt: int,
    isPrivate: bool)

  predicate RatedBy(recs: seq<Record>, uid: Id) {
    exists k :: 0 <= k < |recs| && recs[k].userId == uid
  }

  /** `ratings.find` on the user id: the first record of that user. */
  function FirstBy(recs: seq<Record>, uid: Id): (k: nat)
    requires RatedBy(recs, uid)
    ensures k < |recs| && recs[k].userId == uid
    ensures forall j :: 0 <= j < k ==> recs[j].userId != uid
  {
    if recs[0].userId == uid then 0
    else
      assert RatedBy(recs[1..], uid) by {
        var k :| 0 <= k < |recs| && recs[k].userId == uid;
        assert recs[1..][k - 1].userId == uid;
      }
      1 + FirstBy(recs[1..], uid)
  }

  /** `User.find({ _id: { $in: userIds } })`: the users that rated, in the
      order of the users collection. */
  function Found(users: seq<Rater>, recs: seq<Record>): (r: seq<Rater>)
    ensures |r| <= |users|
    ensures forall i :: 0 <= i < |r| ==> RatedBy(recs, r[i].id)
    ensures forall x :: x in r <==> x in users && RatedBy(recs, x.id)
  {
    if users == [] then []
    else if RatedBy(recs, users[0].id) then [users[0]] + Found(users[1..], recs)
    else Found(users[1..], recs)
  }

  /** One entry: a private user's name and avatar are withheld. */
  function Project(user: Rater, rec: Record): (v: RatingView)
    ensures v.profile.Some? <==> !user.isPrivate
    ensures v.profile.Some? ==> v.profile.value == Profile(user.username, user.avatar)
    ensures v.rating == rec.rating && v.createdAt == rec.createdAt && v.updatedAt == rec.updatedAt
    ensures v.isPrivate == user.isPrivate
  {
    if user.isPrivate then RatingView(None, rec.rating, rec.createdAt, rec.updatedAt, true)
    else RatingView(Some(Profile(user.username, user.avatar)), rec.rating, rec.createdAt, rec.updatedAt, false)
  }

  /** GET /ratings/:id: one entry per user found, built from that user's
      first record for the id. */
  function RatingsList(store: seq<Record>, users: seq<Rater>, id: Id): (r: seq<RatingView>)
    ensures var recs := ForTopic(store, id);
      var found := Found(users, recs);
      |r| == |found| &&
      forall i :: 0 <= i < |r| ==>
        r[i] == Project(found[i], recs[FirstBy(recs, found[i].id)])
    ensures forall i :: 0 <= i < |r| ==> (r[i].profile.Some? <==> !r[i].isPrivate)
  {
    var recs := ForTopic(store, id);
    var found := Found(users, recs);
    seq(|found|, i requires 0 <= i < |found| => Project(found[i], recs[FirstBy(recs, found[i].id)]))
  }

  /** Every listed value is one of the artist's ratings. */
  lemma ListedRatingsBelong(store: seq<Record>, users: seq<Rater>, id: Id, i: nat)
    requires i < |RatingsList(store, users, id)|
    ensures exists rec :: (rec in store && rec.topicId == id &&
                           rec.rating == RatingsList(store, users, id)[i].rating)
  {
    var recs := ForTopic(store, id);
    var found := Found(users, recs);
    var k := FirstBy(recs, found[i].id);
    ForTopicMembers(store, id, recs[k]);
  }

  /** The value `Rating.findOne({ topicId, userId })` gives the caller. */
  function RelevantRating(store: seq<Record>, id: Id, u: Id): (r: Option<real>)
    ensures r.Some? <==> Has(store, id, u)
    ensures r.Some? ==> exists i :: 0 <= i < |store| && Matches(store[i], id, u) && store[i].rating == r.value
  {
    match FindOne(store, id, u)
    case None => None
    case Some(i) => Some(store[i].rating)
  }

  /** GET /:id as written: the handler assigns to the found artist, which
      throws for a missing id, and calls `toFixed` on `rating`, which throws
      while the artist has none. `toFixed` rounding itself is not modelled. */
  function ViewAsWritten(store: seq<Record>, artists: map<Id, ArtistDoc>, id: Id, u: Id)
    : (r: Result<ArtistReply, Fault>)
    ensures r.Success? <==> id in artists && artists[id].rating.Some?
    ensures r.Failure? ==> r.error == TypeFault
    ensures r.Success? ==> r.value == ArtistReply(artists[id], RelevantRating(store, id, u))
  {
    if id !in artists || artists[id].rating.None? then Failure(TypeFault)
    else Success(ArtistReply(artists[id], RelevantRating(store, id, u)))
  }

  /** The rating shown for an artist as intended: an absent summary reads as
      0, the default albums and songs declare and the mean of no records. */
  function Shown(a: ArtistDoc): (r: ArtistDoc)
    ensures r.rating.Some?
    ensures a.rating.Some? ==> r == a
    ensures a.rating.None? ==> r == a.(rating := Some(0.0))
  {
    if a.rating.Some? then a else a.(rating := Some(0.0))
  }

  /** GET /:id as intended: an existing artist is shown, unrated or not. */
  function View(store: seq<Record>, artists: map<Id, ArtistDoc>, id: Id, u: Id)
    : (r: Result<ArtistReply, Fault>)
    ensures r.Success? <==> id in artists
    ensures r.Failure? ==> r.error == TypeFault
    ensures r.Success? ==> r.value.artist.rating.Some? && r.value.artist.name == artists[id].name
    ensures r.Success? ==> r.value.ratingOfRelevantUser == RelevantRating(store, id, u)
    ensures r.Success? && artists[id].rating.Some? ==> r == ViewAsWritten(store, artists, id, u)
  {
    if id !in artists then Failure(TypeFault)
    else Success(ArtistReply(Shown(artists[id]), RelevantRating(store, id, u)))
  }

  /** GET / (and /mostRatedArtists) as written: `toFixed` on every artist of
      the page, so one unrated artist fails the whole page. */
  function ListAsWritten(page: seq<ArtistDoc>): (r: Result<seq<ArtistDoc>, Fault>)
    ensures r.Success? <==> forall i :: 0 <= i < |page| ==> page[i].rating.Some?
    ensures r.Failure? ==> r.error == TypeFault
    ensures r.Success? ==> r.value == page
  {
    if forall i :: 0 <= i < |page| ==> page[i].rating.Some? then Success(page)
    else Failure(TypeFault)
  }

  /** GET / as intended: every artist of the page is shown. */
  function List(page: seq<ArtistDoc>): (r: seq<ArtistDoc>)
    ensures |r| == |page|
    ensures forall i :: 0 <= i < |r| ==> r[i] == Shown(page[i])
    ensures forall i :: 0 <= i < |r| ==> r[i].rating.Some?
  {
    seq(|page|, i requires 0 <= i < |page| => Shown(page[i]))
  }

  /** The discrepancy: an artist nobody has rated (its `rating` was never
      set) cannot be viewed, and fails every page it appears on. */
  lemma UnratedArtistFails(store: seq<Record>, artists: map<Id, ArtistDoc>, id: Id, u: Id,
                           before: seq<ArtistDoc>, after: seq<ArtistDoc>)
    requires id in artists && artists[id].rating.None?
    ensures ViewAsWritten(store, artists, id, u) == Failure(TypeFault)
    ensures View(store, artists, id, u).Success?
    ensures View(store, artists, id, u).value.artist.rating == Some(0.0)
    ensures ListAsWritten(before + [artists[id]] + after) == Failure(TypeFault)
    ensures List(before + [artists[id]] + after)[|before|].rating == Some(0.0)
  {
    var page := before + [artists[id]] + after;
    assert page[|before|] == artists[id];
  }

  /** Once the corrected rate handler has summarised an artist, the view as
      written works and agrees with the corrected one. */
  lemma RatedArtistViewable(store: seq<Record>, artists: map<Id, ArtistDoc>, id: Id, u: Id,
                            v: real, now: int, w: Id)
    requires ValidRating(v) && id in artists
    ensures var o := Rate(store, artists, id, u, v, now);
      ViewAsWritten(o.store, o.artists, id, w).Success? &&
      ViewAsWritten(o.store, o.artists, id, w) == View(o.store, o.artists, id, w)
  {
  }

  /** On a page of summarised artists the corrected list changes nothing. */
  lemma {:induction false} ListOfRated(page: seq<ArtistDoc>)
    requires forall i :: 0 <= i < |page| ==> page[i].rating.Some?
    ensures List(page) == page
    ensures ListAsWritten(page) == Success(List(page))
  {
    assert forall i :: 0 <= i < |page| ==> List(page)[i] == page[i];
  }
}

=== FILE: comments.dfy ===
/** The comment handlers of routes/comment.js: posting, owner-only
    deletion, likes, and the capitalisation of the topic path segment. */
module Comments {
  import opened Wrappers
  import opened Ids

  /** A comment as the handlers use it. The like list and its count are the
      fields the handlers read and write (`likes`, `likeCount`). */
  datatype Comment = Comment(
    content: string,
    userId: Id,
    topic: Option<string>,
    topicId: Id,
    likes: seq<Id>,
    likeCount: nat)

  /** The values the Topic enum of Comment.js admits. */
  predicate KnownTopic(t: string) {
    t == "Artist" || t == "Album" || t == "Song"
  }

  /** The count the handlers keep next to the list. */
  predicate Counted(c: Comment) {
    c.likeCount == |c.likes|
  }

  const NoContent := "No comment written."
  const NotFoundForOwner := "Comment not found."
  const NotFound := "Comment not found"

  /** POST /: falsy content (absent or empty) is refused before anything is
      built; the comment then belongs to the caller and must pass the
      schema (a user id, a known topic if any, a topic id). The empty-object
      user of identifyUser passes `authenticate` (`caller == None`), and it
      is the required `userId` that refuses it. `newId` is the id the
      database assigns. */
  function Post(comments: map<Id, Comment>, newId: Id, caller: Option<Id>,
                topic: Option<string>, topicId: Option<Id>, content: Option<string>)
    : (r: Result<map<Id, Comment>, Fault>)
    requires newId !in comments
    ensures content.None? || content == Some("") ==> r == Failure(Thrown(NoContent))
    ensures r.Success? <==>
      content.Some? && content.value != "" && caller.Some? && topicId.Some? &&
      (topic.None? || KnownTopic(topic.value))
    ensures content.Some? && content.value != "" && r.Failure? ==> r.error == ValidationFault
    ensures r.Success? ==>
      r.value.Keys == comments.Keys + {newId} &&
      (forall k :: k in comments ==> r.value[k] == comments[k]) &&
      r.value[newId].userId == caller.value && r.value[newId].content == content.value &&
      r.value[newId].likes == [] && Counted(r.value[newId])
  {
    if content.None? || content.value == "" then Failure(Thrown(NoContent))
    else if caller.None? || topicId.None? || (topic.Some? && !KnownTopic(topic.value))
    then Failure(ValidationFault)
    else Success(comments[newId := Comment(content.value, caller.value, topic, topicId.value, [], 0)])
  }

  /** DELETE /:id: the comment must exist and belong to the caller;
      otherwise nothing is deleted. */
  function Delete(comments: map<Id, Comment>, id: Id, caller: Id)
    : (r: Result<(map<Id, Comment>, Comment), Fault>)
    ensures r.Success? <==> id in comments && comments[id].userId == caller
    ensures r.Failure? ==> r.error == Thrown(NotFoundForOwner)
    ensures r.Success? ==>
      r.value.0.Keys == comments.Keys - {id} &&
      (forall k :: k in r.value.0 ==> r.value.0[k] == comments[k]) &&
      r.value.1 == comments[id]
  {
    if id in comments && comments[id].userId == caller
    then Success((comments - {id}, comments[id]))
    else Failure(Thrown(NotFoundForOwner))
  }

  /** `filter` on the like list: every occurrence of `u` goes. */
  function Without(likes: seq<Id>, u: Id): (r: seq<Id>)
    ensures |r| <= |likes|
    ensures u !in r
    ensures forall x :: x in r <==> x in likes && x != u
  {
    if likes == [] then []
    else if likes[0] == u then Without(likes[1..], u)
    else [likes[0]] + Without(likes[1..], u)
  }

  /** PATCH /like/:id: the caller is appended even when already present. */
  function Like(comments: map<Id, Comment>, id: Id, caller: Id)
    : (r: Result<map<Id, Comment>, Fault>)
    ensures r.Success? <==> id in comments
    ensures r.Failure? ==> r.error == Thrown(NotFound)
    ensures r.Success? ==>
      r.value.Keys == comments.Keys &&
      (forall k :: k in comments && k != id ==> r.value[k] == comments[k]) &&
      r.value[id].likes == comments[id].likes + [caller] &&
      r.value[id] == comments[id].(likes := r.value[id].likes, likeCount := r.value[id].likeCount) &&
      Counted(r.value[id])
  {
    if id !in comments then Failure(Thrown(NotFound))
    else
      var likes := comments[id].likes + [caller];
      Success(comments[id := comments[id].(likes := likes, likeCount := |likes|)])
  }

  /** PATCH /unlike/:id: every like of the caller is removed, the others
      keep their order. */
  function Unlike(comments: map<Id, Comment>, id: Id, caller: Id)
    : (r: Result<map<Id, Comment>, Fault>)
    ensures r.Success? <==> id in comments
    ensures r.Failure? ==> r.error == Thrown(NotFound)
    ensures r.Success? ==>
      r.value.Keys == comments.Keys &&
      (forall k :: k in comments && k != id ==> r.value[k] == comments[k]) &&
      caller !in r.value[id].likes &&
      r.value[id] == comments[id].(likes := r.value[id].likes, likeCount := r.value[id].likeCount) &&
      Counted(r.value[id])
  {
    if id !in comments then Failure(Thrown(NotFound))
    else
      var likes := Without(comments[id].likes, caller);
      Success(comments[id := comments[id].(likes := likes, likeCount := |likes|)])
  }

  lemma {:induction false} WithoutAbsent(likes: seq<Id>, u: Id)
    requires u !in likes
    ensures Without(likes, u) == likes
  {
    if likes != [] {
      WithoutAbsent(likes[1..], u);
      assert likes == [likes[0]] + likes[1..];
    }
  }

  lemma {:induction false} WithoutAppend(likes: seq<Id>, x: Id, u: Id)
    ensures Without(likes + [x], u) == Without(likes, u) + (if x == u then [] else [x])
  {
    if likes == [] {
      assert likes + [x] == [x];
      assert [x][1..] == [];
    } else {
      assert (likes + [x])[1..] == likes[1..] + [x];
      assert (likes + [x])[0] == likes[0];
      WithoutAppend(likes[1..], x, u);
    }
  }

  /** A like undone by an unlike, from a state where the caller had not
      liked, restores the comment. */
  lemma LikeThenUnlike(comments: map<Id, Comment>, id: Id, caller: Id)
    requires id in comments && Counted(comments[id]) && caller !in comments[id].likes
    ensures Unlike(Like(comments, id, caller).value, id, caller).value == comments
  {
    var c := comments[id];
    WithoutAppend(c.likes, caller, caller);
    WithoutAbsent(c.likes, caller);
    var after := Unlike(Like(comments, id, caller).value, id, caller).value;
    assert after[id] == c;
  }

  /** Likes are not deduplicated: liking twice counts twice. */
  lemma LikeTwice(comments: map<Id, Comment>, id: Id, caller: Id)
    requires id in comments
    ensures Like(Like(comments, id, caller).value, id, caller).value[id].likeCount
         == |comments[id].likes| + 2
  {
  }

  /** Unliking twice is unliking once. */
  lemma UnlikeIdempotent(comments: map<Id, Comment>, id: Id, caller: Id)
    requires id in comments
    ensures Unlike(Unlike(comments, id, caller).value, id, caller).value
         == Unlike(comments, id, caller).value
  {
    WithoutAbsent(Without(comments[id].likes, caller), caller);
  }

  /** As written the schema (Comment.js) declares `likedBy`, not `likes`:
      `comment.likes` is undefined on a loaded document, so spreading it
      throws a TypeError and no like is ever stored. */
  function LikeAsWritten(comments: map<Id, Comment>, id: Id, caller: Id)
    : (r: Result<map<Id, Comment>, Fault>)
    ensures r.Failure?
    ensures r.error == if id in comments then TypeFault else Thrown(NotFound)
  {
    if id !in comments then Failure(Thrown(NotFound)) else Failure(TypeFault)
  }

  /** The unlike handler as written fails the same way: `filter` is called
      on the undefined `comment.likes`. */
  function UnlikeAsWritten(comments: map<Id, Comment>, id: Id, caller: Id)
    : (r: Result<map<Id, Comment>, Fault>)
    ensures r.Failure?
    ensures r.error == if id in comments then TypeFault else Thrown(NotFound)
  {
    if id !in comments then Failure(Thrown(NotFound)) else Failure(TypeFault)
  }

  /** The discrepancy: with the list declared as the handlers use it, the
      same requests succeed, the like is recorded and the unlike removes it. */
  lemma LikeLost(comments: map<Id, Comment>, id: Id, caller: Id)
    requires id in comments
    ensures LikeAsWritten(comments, id, caller) == Failure(TypeFault)
    ensures UnlikeAsWritten(comments, id, caller) == Failure(TypeFault)
    ensures Like(comments, id, caller).Success?
    ensures caller in Like(comments, id, caller).value[id].likes
    ensures Unlike(comments, id, caller).Success?
    ensures caller !in Unlike(comments, id, caller).value[id].likes
  {
  }

  /** `toUpperCase` on one character, for ASCII letters. */
  function UpperChar(c: char): (r: char)
    ensures 'a' <= c <= 'z' ==> 'A' <= r <= 'Z' && r as int - c as int == 'A' as int - 'a' as int
    ensures !('a' <= c <= 'z') ==> r == c
  {
    if 'a' <= c <= 'z' then (c as int - 'a' as int + 'A' as int) as char else c
  }

  /** The topic path segment with its first character uppercased. */
  function Capitalize(s: string): (r: string)
    ensures |r| == |s|
    ensures s != [] ==> r[0] == UpperChar(s[0]) && r[1..] == s[1..]
  {
    if s == [] then [] else [UpperChar(s[0])] + s[1..]
  }

  lemma CapitalizeIdempotent(s: string)
    ensures Capitalize(Capitalize(s)) == Capitalize(s)
  {
  }

  /** The lower-case segments the client sends become the stored topics. */
  lemma CapitalizeTopics()
    ensures Capitalize("artist") == "Artist"
    ensures Capitalize("album") == "Album"
    ensures Capitalize("song") == "Song"
  {
  }
}

=== FILE: email_users.dfy ===
/** The second user model, user.js: field validators, the JSON projection,
    the e-mail login with its deleted-account guard and the pre-save hook. */
module EmailUsers {
  import opened Wrappers
  import opened Text
  import Slug

  /** The frozen Role object of this model: no moderators. */
  datatype Role = Admin | User

  datatype UserDoc = UserDoc(
    email: string,
    username: string,
    password: string,
    name: Option<string>,
    surname: Option<string>,
    role: Role,
    isDeleted: bool)

  const InvalidEmail := "Please enter a valid email"
  const PasswordLength := "Password length must be 8-16 characters"
  const InvalidLogin := "Invalid email or password"

  /** A user as first built: e-mail, username, name and surname trimmed,
      role User, not deleted. */
  function NewUser(email: string, username: string, password: string,
                   name: Option<string>, surname: Option<string>): (u: UserDoc)
    ensures u.role == User && !u.isDeleted && u.password == password
    ensures u.email == Trim(email) && u.username == Trim(username)
    ensures u.name.Some? <==> name.Some?
    ensures name.Some? ==> u.name.value == Trim(name.value)
    ensures surname.Some? ==> u.surname == Some(Trim(surname.value))
    ensures surname.None? ==> u.surname.None?
  {
    UserDoc(Trim(email), Trim(username), password,
            if name.Some? then Some(Trim(name.value)) else None,
            if surname.Some? then Some(Trim(surname.value)) else None,
            User, false)
  }

  /** The e-mail validator; `isEmail` stands for `validator.isEmail`. */
  function EmailError(value: string, isEmail: string -> bool): (r: Option<string>)
    ensures r.None? <==> isEmail(value)
    ensures r.Some? ==> r.value == InvalidEmail
  {
    if isEmail(value) then None else Some(InvalidEmail)
  }

  /** The password validator: 8 to 16 characters, bounds included. */
  function PasswordError(value: string): (r: Option<string>)
    ensures r.None? <==> 8 <= |value| <= 16
    ensures r.Some? ==> r.value == PasswordLength
  {
    if 8 <= |value| && |value| <= 16 then None else Some(PasswordLength)
  }

  /** The bounds are inclusive: 8 and 16 characters pass, 7 and 17 fail. */
  lemma PasswordBounds(p: string)
    ensures |p| == 8 || |p| == 16 ==> PasswordError(p).None?
    ensures |p| == 7 || |p| == 17 ==> PasswordError(p) == Some(PasswordLength)
  {
  }

  /** `toJSON`: the document's fields without `password`; unlike the other
      user model, `isDeleted` stays visible. */
  function ToJson<V>(doc: map<string, V>): (r: map<string, V>)
    ensures "password" !in r
    ensures forall k :: k in doc && k != "password" ==> k in r && r[k] == doc[k]
    ensures forall k :: k in r ==> k in doc
  {
    doc - {"password"}
  }

  /** Projecting twice is projecting once. */
  lemma ToJsonIdempotent<V>(doc: map<string, V>)
    ensures ToJson(ToJson(doc)) == ToJson(doc)
  {
  }

  /** `findOne({ email })`: the first user with that e-mail. */
  function FirstWithEmail(users: seq<UserDoc>, email: string): (r: Option<nat>)
    ensures r.Some? ==> r.value < |users| && users[r.value].email == email
    ensures r.Some? ==> forall j :: 0 <= j < r.value ==> users[j].email != email
    ensures r.None? ==> forall j :: 0 <= j < |users| ==> users[j].email != email
  {
    if users == [] then None
    else if users[0].email == email then Some(0)
    else match FirstWithEmail(users[1..], email)
      case None => None
      case Some(i) => Some(i + 1)
  }

  /** `findByCredentials`: the first user with the e-mail, refused when
      absent or deleted, then the password checked with `compare` (standing
      for `bcrypt.compare`); every refusal carries the same message. The
      schema's `trim` setter applies to the query, so the stored e-mail is
      compared with the trimmed one. */
  function FindByCredentials(users: seq<UserDoc>, email: string, password: string,
                             compare: (string, string) -> bool)
    : (r: Result<UserDoc, Fault>)
    ensures r.Failure? ==> r.error == Thrown(InvalidLogin)
    ensures r.Success? <==>
      FirstWithEmail(users, Trim(email)).Some? &&
      !users[FirstWithEmail(users, Trim(email)).value].isDeleted &&
      compare(password, users[FirstWithEmail(users, Trim(email)).value].password)
    ensures r.Success? ==> r.value in users && r.value.email == Trim(email) && !r.value.isDeleted
  {
    match FirstWithEmail(users, Trim(email))
    case None => Failure(Thrown(InvalidLogin))
    case Some(i) =>
      if users[i].isDeleted then Failure(Thrown(InvalidLogin))
      else if compare(password, users[i].password) then Success(users[i])
      else Failure(Thrown(InvalidLogin))
  }

  /** A deleted account cannot log in, whatever the password and however
      the e-mail is padded. */
  lemma DeletedCannotLogin(users: seq<UserDoc>, i: nat, email: string, password: string,
                           compare: (string, string) -> bool)
    requires i < |users| && users[i].isDeleted && Trim(email) == users[i].email
    requires forall j :: 0 <= j < |users| && j != i ==> users[j].email != users[i].email
    ensures FindByCredentials(users, email, password, compare).Failure?
  {
    var r := FirstWithEmail(users, Trim(email));
    assert r == Some(i) by {
      assert r.Some?;
    }
  }

  /** White space around the e-mail does not change the outcome. */
  lemma {:induction false} LoginIgnoresPadding(users: seq<UserDoc>, w1: string, email: string, w2: string,
                                               password: string, compare: (string, string) -> bool)
    requires AllSpace(w1) && AllSpace(w2)
    ensures FindByCredentials(users, w1 + email + w2, password, compare)
         == FindByCredentials(users, email, password, compare)
  {
    Slug.TrimSurrounded(w1, email, w2);
  }

  /** A failed login is indistinguishable from a login to an empty user
      base. */
  lemma FailedLoginRevealsNothing(users: seq<UserDoc>, email: string, password: string,
                                  compare: (string, string) -> bool)
    requires FindByCredentials(users, email, password, compare).Failure?
    ensures FindByCredentials(users, email, password, compare)
         == FindByCredentials([], email, password, compare)
  {
  }

  /** The pre-save hook: a modified password is replaced by its hash. */
  function PreSave(u: UserDoc, passwordModified: bool, hash: string -> string): (r: UserDoc)
    ensures r.password != u.password ==> passwordModified
    ensures passwordModified ==> r.password == hash(u.password)
    ensures r == u.(password := r.password)
  {
    if passwordModified then u.(password := hash(u.password)) else u
  }

  /** Saving again without touching the password does not re-hash it. */
  lemma ResaveKeepsHash(u: UserDoc, hash: string -> string)
    ensures PreSave(PreSave(u, true, hash), false, hash) == PreSave(u, true, hash)
  {
  }
}

=== FILE: embedded.dfy ===
/** The `ratings` array embedded in album and song documents (the
    RatingSchema of Album.js and Song.js) and what the rate / remove-rating
    handlers do to it. */
module Embedded {
  import opened Wrappers
  import opened Ids
  import opened Aggregate

  /** One embedded rating: who rated and the value they gave. */
  datatype Entry = Entry(userId: Id, rating: real)

  function Score(e: Entry): real {
    e.rating
  }

  predicate Rated(es: seq<Entry>, u: Id) {
    exists i :: 0 <= i < |es| && es[i].userId == u
  }

  /** At most one entry per user: the invariant the upsert keeps. */
  predicate Unique(es: seq<Entry>) {
    forall i, j :: 0 <= i < j < |es| ==> es[i].userId != es[j].userId
  }

  /** Every entry passes the schema's `min: 1` / `max: 10` validators. */
  predicate AllValid(es: seq<Entry>) {
    forall i :: 0 <= i < |es| ==> ValidRating(es[i].rating)
  }

  /** `findIndex` on the user id: the first entry of `u`, or none. */
  function FindIndex(es: seq<Entry>, u: Id): (r: Option<nat>)
    ensures r.Some? ==> r.value < |es| && es[r.value].userId == u
    ensures r.Some? ==> forall j :: 0 <= j < r.value ==> es[j].userId != u
    ensures r.None? ==> !Rated(es, u)
  {
    if es == [] then None
    else if es[0].userId == u then Some(0)
    else match FindIndex(es[1..], u)
      case None => None
      case Some(i) => Some(i + 1)
  }

  /** `find` on the user id: the value the first entry of `u` carries. */
  function Lookup(es: seq<Entry>, u: Id): (r: Option<real>)
    ensures r.Some? <==> Rated(es, u)
    ensures r.Some? ==> exists i :: 0 <= i < |es| && es[i] == Entry(u, r.value)
    ensures r.Some? ==> r.value == es[FindIndex(es, u).value].rating
  {
    match FindIndex(es, u)
      case None => None
      case Some(i) => Some(es[i].rating)
  }

  /** Rate: overwrite the value of the caller's first entry, or append a new
      entry at the end. */
  function Upsert(es: seq<Entry>, u: Id, v: real): (r: seq<Entry>)
    ensures Rated(es, u) ==> |r| == |es|
    ensures !Rated(es, u) ==> r == es + [Entry(u, v)]
    ensures forall i :: 0 <= i < |es| ==> r[i].userId == es[i].userId
    ensures forall i :: 0 <= i < |es| && es[i].userId != u ==> r[i] == es[i]
  {
    match FindIndex(es, u)
      case Some(i) => es[i := Entry(u, v)]
      case None => es + [Entry(u, v)]
  }

  /** Remove rating: `filter` out every entry of the caller. */
  function RemoveUser(es: seq<Entry>, u: Id): (r: seq<Entry>)
    ensures |r| <= |es|
    ensures !Rated(r, u)
    ensures forall e :: e in r <==> e in es && e.userId != u
  {
    if es == [] then []
    else if es[0].userId == u then RemoveUser(es[1..], u)
    else [es[0]] + RemoveUser(es[1..], u)
  }

  /** After rating, the caller's value is the one given and everybody
      else's is as before. */
  lemma UpsertLookup(es: seq<Entry>, u: Id, v: real, w: Id)
    ensures Lookup(Upsert(es, u, v), w) == if w == u then Some(v) else Lookup(es, w)
  {
    var r := Upsert(es, u, v);
    match FindIndex(es, u)
    case Some(i) =>
      assert r[i] == Entry(u, v);
      FindAfterUpsert(es, u, v, w, i);
    case None =>
      FindAfterAppend(es, Entry(u, v), w);
  }

  lemma FindAfterUpsert(es: seq<Entry>, u: Id, v: real, w: Id, i: nat)
    requires FindIndex(es, u) == Some(i)
    ensures FindIndex(es[i := Entry(u, v)], w) ==
            (if w == u then Some(i) else FindIndex(es, w))
  {
    var r := es[i := Entry(u, v)];
    FindSame(es, r, w);
  }

  /** `FindIndex` only looks at user ids. */
  lemma {:induction false} FindSame(a: seq<Entry>, b: seq<Entry>, w: Id)
    requires |a| == |b|
    requires forall i :: 0 <= i < |a| ==> a[i].userId == b[i].userId
    ensures FindIndex(a, w) == FindIndex(b, w)
  {
    if a != [] {
      FindSame(a[1..], b[1..], w);
    }
  }

  lemma {:induction false} FindAfterAppend(es: seq<Entry>, e: Entry, w: Id)
    requires !Rated(es, e.userId)
    ensures FindIndex(es + [e], w) ==
            (if w == e.userId then Some(|es|) else FindIndex(es, w))
  {
    if es == [] {
      assert es + [e] == [e];
    } else {
      assert (es + [e])[1..] == es[1..] + [e];
      FindAfterAppend(es[1..], e, w);
    }
  }

  /** After removing, the caller has no value left and nobody else's
      changed. */
  lemma {:induction false} RemoveLookup(es: seq<Entry>, u: Id, w: Id)
    ensures Lookup(RemoveUser(es, u), w) == if w == u then None else Lookup(es, w)
  {
    if es != [] && w != u {
      RemoveLookup(es[1..], u, w);
      if es[0].userId != u {
        assert ([es[0]] + RemoveUser(es[1..], u))[1..] == RemoveUser(es[1..], u);
      }
    }
  }

  lemma UpsertUnique(es: seq<Entry>, u: Id, v: real)
    requires Unique(es)
    ensures Unique(Upsert(es, u, v))
  {
  }

  lemma UpsertValid(es: seq<Entry>, u: Id, v: real)
    requires AllValid(es) && ValidRating(v)
    ensures AllValid(Upsert(es, u, v))
  {
    var r := Upsert(es, u, v);
    forall i | 0 <= i < |r|
      ensures ValidRating(r[i].rating)
    {
      if i < |es| && es[i].userId != u {
        assert r[i] == es[i];
      }
    }
  }

  lemma {:induction false} RemoveUnique(es: seq<Entry>, u: Id)
    requires Unique(es)
    ensures Unique(RemoveUser(es, u))
  {
    if es != [] {
      RemoveUnique(es[1..], u);
      if es[0].userId != u {
        var rest := RemoveUser(es[1..], u);
        forall j | 0 <= j < |rest|
          ensures rest[j].userId != es[0].userId
        {
          assert rest[j] in es[1..];
        }
      }
    }
  }

  lemma RemoveValid(es: seq<Entry>, u: Id)
    requires AllValid(es)
    ensures AllValid(RemoveUser(es, u))
  {
    var r := RemoveUser(es, u);
    forall i | 0 <= i < |r|
      ensures ValidRating(r[i].rating)
    {
      assert r[i] in es;
    }
  }

  /** Rating twice with the same value is the same as rating once. */
  lemma UpsertIdempotent(es: seq<Entry>, u: Id, v: real)
    ensures Upsert(Upsert(es, u, v), u, v) == Upsert(es, u, v)
  {
    var r := Upsert(es, u, v);
    assert Rated(r, u) by {
      UpsertLookup(es, u, v, u);
    }
    match FindIndex(r, u)
    case Some(i) =>
      match FindIndex(es, u)
      case Some(k) =>
        FindAfterUpsert(es, u, v, u, k);
      case None =>
        FindAfterAppend(es, Entry(u, v), u);
  }

  /** A first rating undone by a removal leaves the array as it was. */
  lemma {:induction false} RemoveAfterFirstRating(es: seq<Entry>, u: Id, v: real)
    requires !Rated(es, u)
    ensures RemoveUser(Upsert(es, u, v), u) == es
  {
    RemoveAppend(es, Entry(u, v), u);
    RemoveAbsent(es, u);
  }

  lemma {:induction false} RemoveAbsent(es: seq<Entry>, u: Id)
    requires !Rated(es, u)
    ensures RemoveUser(es, u) == es
  {
    if es != [] {
      assert es[0].userId != u;
      RemoveAbsent(es[1..], u);
      assert es == [es[0]] + es[1..];
    }
  }

  lemma {:induction false} RemoveAppend(es: seq<Entry>, e: Entry, u: Id)
    ensures RemoveUser(es + [e], u) ==
            RemoveUser(es, u) + (if e.userId == u then [] else [e])
  {
    if es == [] {
      assert es + [e] == [e];
      assert RemoveUser([e], u) == (if e.userId == u then [] else [e]) + RemoveUser([], u);
    } else {
      assert (es + [e])[1..] == es[1..] + [e];
      assert (es + [e])[0] == es[0];
      RemoveAppend(es[1..], e, u);
    }
  }

  /** The rate handler applied to the array, for a caller who may be the
      empty object `identifyUser` substitutes for a missing user. */
  function RateEntries(es: seq<Entry>, caller: Option<Id>, v: real): (r: Result<seq<Entry>, Fault>)
    ensures r.Success? <==> caller.Some? && ValidRating(v)
    ensures caller.None? && es != [] ==> r == Failure(TypeFault)
    ensures r.Success? ==> r.value == Upsert(es, caller.value, v)
    ensures r.Success? ==> Lookup(r.value, caller.value) == Some(v)
    ensures r.Success? ==> forall w :: w != caller.value ==> Lookup(r.value, w) == Lookup(es, w)
    ensures r.Success? && Unique(es) ==> Unique(r.value)
    ensures r.Success? && AllValid(es) ==> AllValid(r.value)
  {
    match caller
    case None =>
      // `req.user._id` is undefined: comparing it throws on the first
      // entry; with no entries the pushed one fails `userId: required`.
      if es != [] then Failure(TypeFault) else Failure(ValidationFault)
    case Some(u) =>
      // The new value is checked against `min` / `max` on save.
      if !ValidRating(v) then Failure(ValidationFault)
      else
        assert forall w :: Lookup(Upsert(es, u, v), w) == if w == u then Some(v) else Lookup(es, w) by {
          forall w ensures Lookup(Upsert(es, u, v), w) == if w == u then Some(v) else Lookup(es, w) {
            UpsertLookup(es, u, v, w);
          }
        }
        assert Unique(es) ==> Unique(Upsert(es, u, v)) by {
          if Unique(es) { UpsertUnique(es, u, v); }
        }
        assert AllValid(es) ==> AllValid(Upsert(es, u, v)) by {
          if AllValid(es) { UpsertValid(es, u, v); }
        }
        Success(Upsert(es, u, v))
  }

  /** The remove-rating handler applied to the array. */
  function RemoveEntries(es: seq<Entry>, caller: Option<Id>): (r: Result<seq<Entry>, Fault>)
    ensures r.Success? <==> caller.Some? || es == []
    ensures r.Failure? ==> r.error == TypeFault
    ensures r.Success? && caller.Some? ==> r.value == RemoveUser(es, caller.value)
    ensures r.Success? && caller.Some? ==> !Rated(r.value, caller.value)
    ensures r.Success? && caller.Some? ==> forall w :: w != caller.value ==> Lookup(r.value, w) == Lookup(es, w)
    ensures r.Success? ==> |r.value| <= |es|
    ensures r.Success? && Unique(es) ==> Unique(r.value)
    ensures r.Success? && AllValid(es) ==> AllValid(r.value)
  {
    match caller
    case None =>
      if es != [] then Failure(TypeFault) else Success([])
    case Some(u) =>
      assert forall w :: w != u ==> Lookup(RemoveUser(es, u), w) == Lookup(es, w) by {
        forall w | w != u ensures Lookup(RemoveUser(es, u), w) == Lookup(es, w) {
          RemoveLookup(es, u, w);
        }
      }
      assert Unique(es) ==> Unique(RemoveUser(es, u)) by {
        if Unique(es) { RemoveUnique(es, u); }
      }
      assert AllValid(es) ==> AllValid(RemoveUser(es, u)) by {
        if AllValid(es) { RemoveValid(es, u); }
      }
      Success(RemoveUser(es, u))
  }
}

=== FILE: middleware.dfy ===
/** The request middlewares: language selection (setLang.js), the bearer
    token lookup (identifyUser.js) and the login gate (authenticate.js). */
module Middleware {
  import opened Wrappers
  import opened Ids
  import opened Text
  import opened Http

  /** setLang: the first truthy of the `lang` query parameter and the
      `x-lang` header, else "en", lowercased. `next()` always follows. */
  function SetLang(query: Option<string>, header: Option<string>): (lang: string)
    ensures forall i :: 0 <= i < |lang| ==> !IsUpper(lang[i])
    ensures Truthy(query) ==> lang == Lower(query.value)
    ensures !Truthy(query) && Truthy(header) ==> lang == Lower(header.value)
    ensures !Truthy(query) && !Truthy(header) ==> lang == "en"
  {
    var chosen := if Truthy(query) then query.value else if Truthy(header) then header.value else "en";
    assert chosen == "en" ==> Lower(chosen) == "en" by {
      if chosen == "en" {
        LowerOfFixed("en");
      }
    }
    Lower(chosen)
  }

  /** Setting the language twice from its own result changes nothing. */
  lemma SetLangStable(query: Option<string>, header: Option<string>)
    ensures var lang := SetLang(query, header);
      lang == "" || SetLang(Some(lang), header) == lang
  {
    var lang := SetLang(query, header);
    if Truthy(query) {
      LowerIdempotent(query.value);
    } else if Truthy(header) {
      LowerIdempotent(header.value);
    } else {
      LowerOfFixed("en");
    }
  }

  /** `req.user` after identifyUser: never set, the empty object `{}` the
      handler falls back to, or a user document. */
  datatype ReqUser<U> = Unset | Empty | Found(user: U)

  /** `User.findOne({ _id })`: the first user with the id. */
  function FirstWithId<U>(users: seq<U>, idOf: U -> Id, id: Id): (r: Option<nat>)
    ensures r.Some? ==> r.value < |users| && idOf(users[r.value]) == id
    ensures r.Some? ==> forall j :: 0 <= j < r.value ==> idOf(users[j]) != id
    ensures r.None? ==> forall j :: 0 <= j < |users| ==> idOf(users[j]) != id
  {
    if users == [] then None
    else if idOf(users[0]) == id then Some(0)
    else match FirstWithId(users[1..], idOf, id)
      case None => None
      case Some(i) => Some(i + 1)
  }

  /** identifyUser: "Bearer " is removed from the Authorization header (its
      first occurrence), the rest is verified (`verify` stands for
      `jwt.verify` and yields the id the token carries) and the user with
      that id is looked up. A missing header, a bad token and an unknown id
      all end in `{}`; `next()` is called in every case. */
  function Identify<U>(header: Option<string>, verify: string -> Option<Id>, users: seq<U>, idOf: U -> Id)
    : (r: ReqUser<U>)
    ensures r != Unset
    ensures r.Found? <==>
      header.Some? && verify(RemoveFirst(header.value, "Bearer ")).Some? &&
      FirstWithId(users, idOf, verify(RemoveFirst(header.value, "Bearer ")).value).Some?
    ensures r.Found? ==>
      r.user == users[FirstWithId(users, idOf, verify(RemoveFirst(header.value, "Bearer ")).value).value]
  {
    match header
    case None => Empty
    case Some(h) =>
      match verify(RemoveFirst(h, "Bearer "))
      case None => Empty
      case Some(id) =>
        match FirstWithId(users, idOf, id)
        case None => Empty
        case Some(i) => Found(users[i])
  }

  /** A well-formed header: the token after the prefix is what is verified. */
  lemma IdentifyBearer<U>(token: string, verify: string -> Option<Id>, users: seq<U>, idOf: U -> Id)
    ensures Identify(Some("Bearer " + token), verify, users, idOf).Found? ==>
      verify(token).Some? && idOf(Identify(Some("Bearer " + token), verify, users, idOf).user) == verify(token).value
  {
    RemoveLeadingPattern("Bearer ", token);
  }

  /** authenticate: a falsy `req.user` is answered with 401; anything else,
      `{}` included, goes on. */
  function Authenticate<U>(u: ReqUser<U>): (v: Verdict)
    ensures v.Next? <==> !u.Unset?
    ensures v.Reject? ==> v == Reject(401, "Failed", "Please login")
  {
    if u.Unset? then Reject(401, "Failed", "Please login") else Next
  }

  /** identifyUser always leaves something truthy in `req.user`, so the gate
      placed after it never rejects. */
  lemma AuthenticateAfterIdentify<U>(header: Option<string>, verify: string -> Option<Id>, users: seq<U>, idOf: U -> Id)
    ensures Authenticate(Identify(header, verify, users, idOf)) == Next
  {
  }
}

=== FILE: numbers.dfy ===
/** Node's `Number(string)` on the strings the paginators receive, the
    arithmetic they do on the results, and `Math.ceil` of a quotient. */
module Numbers {
  import opened Wrappers
  import opened Text

  predicate AllDigits(s: string) {
    forall i :: 0 <= i < |s| ==> IsDigit(s[i])
  }

  /** The value of a string of decimal digits. */
  function DigitsValue(s: string): (n: nat)
    requires AllDigits(s)
  {
    if s == [] then 0 else 10 * DigitsValue(s[..|s| - 1]) + (s[|s| - 1] as int - '0' as int)
  }

  /** The decimal spelling of a natural number, without leading zeros. */
  function Decimal(n: nat): (s: string)
    ensures |s| > 0 && AllDigits(s)
  {
    if n < 10 then [(n + '0' as int) as char]
    else Decimal(n / 10) + [(n % 10 + '0' as int) as char]
  }

  lemma {:induction false} DecimalValue(n: nat)
    ensures DigitsValue(Decimal(n)) == n
  {
    if n >= 10 {
      DecimalValue(n / 10);
      var s := Decimal(n);
      assert s[..|s| - 1] == Decimal(n / 10);
    }
  }

  /** `Number(s)` for a string: surrounding white space is ignored, an
      empty rest is 0, an optionally signed run of decimal digits is its
      value, and anything else is NaN. */
  function ToNumber(s: string): (r: Num)
    ensures Trim(s) == [] ==> r == Finite(0)
    ensures AllDigits(Trim(s)) && Trim(s) != [] ==> r == Finite(DigitsValue(Trim(s)))
  {
    var t := Trim(s);
    if t == [] then Finite(0)
    else if AllDigits(t) then Finite(DigitsValue(t))
    else if |t| > 1 && (t[0] == '-' || t[0] == '+') && AllDigits(t[1..]) then
      var v: int := DigitsValue(t[1..]);
      if t[0] == '-' then Finite(-v) else Finite(v)
    else NaN
  }

  /** The spelling of any integer reads back as that integer. */
  lemma ToNumberOfDecimal(n: int)
    ensures ToNumber(if n < 0 then "-" + Decimal(-n) else Decimal(n)) == Finite(n)
  {
    var d := Decimal(if n < 0 then -n else n);
    DecimalValue(if n < 0 then -n else n);
    if n < 0 {
      var s := "-" + d;
      TrimOfTrimmed(s);
      assert s[1..] == d;
      assert !AllDigits(s) by { assert !IsDigit(s[0]); }
    } else {
      TrimOfTrimmed(d);
    }
  }

  lemma ToNumberOfNat(n: nat)
    ensures ToNumber(Decimal(n)) == Finite(n)
  {
    ToNumberOfDecimal(n);
  }

  /** A string ending in a date suffix such as "-01-01" is not a number:
      after trimming, a '-' still follows its first character. */
  lemma DateSuffixIsNaN(x: string)
    ensures ToNumber(x + "-01-01") == NaN
  {
    var s := x + "-01-01";
    var L := LeadingSpaces(s);
    assert s[|x|] == '-' && !IsSpace(s[|x|]);
    assert L <= |x|;
    var t0 := TrimStart(s);
    assert t0 == s[L..];
    assert t0[|t0| - 1] == '1' && !IsSpace(t0[|t0| - 1]);
    assert TrailingSpaces(t0) == 0;
    var t := Trim(s);
    assert t == t0;
    assert t[|t| - 3] == '-' && !IsDigit(t[|t| - 3]);
    assert t[1..][|t| - 4] == '-' && !IsDigit(t[1..][|t| - 4]);
  }

  /** `Number(undefined)`, and a default when the parameter is absent. */
  function Param(p: Option<string>, default: int): (r: Num)
    ensures p.None? ==> r == Finite(default)
    ensures p.Some? ==> r == ToNumber(p.value)
  {
    match p
    case None => Finite(default)
    case Some(s) => ToNumber(s)
  }

  function Sub(a: Num, b: int): Num {
    match a
    case NaN => NaN
    case Finite(x) => Finite(x - b)
  }

  function Mul(a: Num, b: Num): Num {
    if a.NaN? || b.NaN? then NaN else Finite(a.n * b.n)
  }

  /** `Math.ceil(count / limit)`; `None` when the quotient is not finite
      (limit 0 or NaN). */
  function PageCount(count: nat, limit: Num): (r: Option<int>)
    ensures r.None? <==> limit.NaN? || limit.n == 0
    ensures r.Some? && limit.n > 0 ==>
      r.value >= 0 && r.value * limit.n >= count && (r.value - 1) * limit.n < count
    ensures r.Some? && limit.n < 0 ==>
      r.value <= 0 && r.value * limit.n <= count && (r.value - 1) * limit.n > count
  {
    if limit.NaN? || limit.n == 0 then None
    else if limit.n > 0 then Some((count + limit.n - 1) / limit.n)
    else Some(-(count / -limit.n))
  }

  /** Page `page` (counting from 1) of `limit` items starts at
      `(page - 1) * limit`; it holds items exactly when it is one of the
      `PageCount` pages. */
  lemma PageWithinCount(count: nat, limit: nat, page: int)
    requires limit > 0 && page >= 1
    ensures (page - 1) * limit < count <==> page <= PageCount(count, Finite(limit)).value
  {
    var q := PageCount(count, Finite(limit)).value;
    if page <= q {
      assert (page - 1) * limit <= (q - 1) * limit;
    } else {
      assert (page - 1) * limit >= q * limit;
    }
  }
}

=== FILE: pagination.dfy ===
/** The three list paginators (paginateArtists.js, paginateAlbums.js,
    paginateSongs.js): query parameters with defaults, the skip/limit
    window, the filters and the sort they hand to the list handlers. */
module Pagination {
  import opened Wrappers
  import opened Text
  import opened Numbers

  /** The query string parameters; absent ones take the defaults. */
  datatype Params = Params(
    page: Option<string>,
    limit: Option<string>,
    searchTerm: Option<string>,
    genre: Option<string>,
    rating: Option<string>,
    year: Option<string>,
    orderBy: Option<string>)

  /** The filter handed to `find`. `fields` are the fields the search term
      is matched against (one `$regex` each, joined by `$or` when there are
      several); `years` is the year range: foundation years for artists,
      release years for albums and songs. */
  datatype Find = Find(
    searchTerm: string,
    fields: seq<string>,
    years: (Num, Num),
    minRating: Num,
    genre: Option<string>)

  datatype Sort = Sort(field: string, order: int)

  datatype Page = Page(find: Find, sort: Sort, skip: Num, limit: Num)

  function Or(p: Option<string>, default: string): (s: string)
    ensures p.Some? ==> s == p.value
    ensures p.None? ==> s == default
  {
    if p.Some? then p.value else default
  }

  /** `-1` except for "Oldest". */
  function SortOrder(orderBy: string): (o: int)
    ensures o == 1 <==> orderBy == "Oldest"
    ensures o == 1 || o == -1
  {
    if orderBy == "Oldest" then 1 else -1
  }

  /** The sort field of the artist list. */
  function ArtistSortField(orderBy: string): (f: string)
    ensures f == "foundationYear" <==> orderBy == "Year"
    ensures f == "rating" <==> orderBy == "Rating"
    ensures f == "ratingCount" <==> orderBy == "Popularity"
    ensures f == "createdAt" <==> orderBy != "Year" && orderBy != "Rating" && orderBy != "Popularity"
  {
    if orderBy == "Year" then "foundationYear"
    else if orderBy == "Rating" then "rating"
    else if orderBy == "Popularity" then "ratingCount"
    else "createdAt"
  }

  /** The sort field of the album list. */
  function AlbumSortField(orderBy: string): (f: string)
    ensures f == "releaseDate" <==> orderBy == "Year"
    ensures f == "rating" <==> orderBy == "Rating"
    ensures f == "ratingCount" <==> orderBy == "Popularity"
    ensures f == "createdAt" <==> orderBy != "Year" && orderBy != "Rating" && orderBy != "Popularity"
  {
    if orderBy == "Year" then "releaseDate"
    else if orderBy == "Rating" then "rating"
    else if orderBy == "Popularity" then "ratingCount"
    else "createdAt"
  }

  /** The sort field of the song list, which has no popularity order. */
  function SongSortField(orderBy: string): (f: string)
    ensures f == "releaseDate" <==> orderBy == "Year"
    ensures f == "rating" <==> orderBy == "Rating"
    ensures f == "createdAt" <==> orderBy != "Year" && orderBy != "Rating"
  {
    if orderBy == "Year" then "releaseDate"
    else if orderBy == "Rating" then "rating"
    else "createdAt"
  }

  /** The genre filter: none for "All". */
  function GenreFilter(genre: string): (g: Option<string>)
    ensures g.Some? <==> genre != "All"
    ensures g.Some? ==> g.value == genre
  {
    if genre == "All" then None else Some(genre)
  }

  predicate NoDash(s: string) {
    forall j :: 0 <= j < |s| ==> s[j] != '-'
  }

  lemma DashFreePrefix(s: string, k: nat)
    requires k <= |s|
    requires forall j: nat :: j < k ==> !OccursAt(s, "-", j)
    ensures NoDash(s[..k])
  {
    forall j | 0 <= j < k
      ensures s[..k][j] != '-'
    {
      assert !OccursAt(s, "-", j);
      assert s[j..j + 1] == [s[j]];
    }
  }

  /** `String.prototype.split("-")`. */
  function SplitDash(s: string): (parts: seq<string>)
    ensures |parts| >= 1
    ensures forall i :: 0 <= i < |parts| ==> NoDash(parts[i])
    decreases |s|
  {
    match IndexOf(s, "-")
    case None =>
      DashFreePrefix(s, |s|);
      assert s[..|s|] == s;
      [s]
    case Some(k) =>
      DashFreePrefix(s, k);
      [s[..k]] + SplitDash(s[k + 1..])
  }

  lemma FirstDash(a: string, b: string)
    requires NoDash(a)
    ensures IndexOf(a + "-" + b, "-") == Some(|a|)
  {
    var s := a + "-" + b;
    assert s[|a|..|a| + 1] == "-";
    assert OccursAt(s, "-", |a|);
    forall j: nat | j < |a|
      ensures !OccursAt(s, "-", j)
    {
      assert s[j..j + 1] == [a[j]];
    }
  }

  lemma SplitOfPlain(s: string)
    requires NoDash(s)
    ensures SplitDash(s) == [s]
  {
    forall j: nat
      ensures !OccursAt(s, "-", j)
    {
      if j + 1 <= |s| {
        assert s[j..j + 1] == [s[j]];
      }
    }
  }

  /** "A-B" splits into A and B. */
  lemma SplitOfRange(a: string, b: string)
    requires NoDash(a) && NoDash(b)
    ensures SplitDash(a + "-" + b) == [a, b]
  {
    var s := a + "-" + b;
    FirstDash(a, b);
    assert s[..|a|] == a;
    assert s[|a| + 1..] == b;
    SplitOfPlain(b);
  }

  /** The year range: 1900 to the current year for "All", otherwise the
      numbers before and after the first '-' (NaN when there is none).
      `currentYear` stands for `moment().year()`. */
  function YearRange(year: string, currentYear: int): (r: (Num, Num))
    ensures year == "All" ==> r == (Finite(1900), Finite(currentYear))
  {
    if year == "All" then (Finite(1900), Finite(currentYear))
    else
      var parts := SplitDash(year);
      (ToNumber(parts[0]), if |parts| > 1 then ToNumber(parts[1]) else NaN)
  }

  lemma DecimalHasNoDash(n: nat)
    ensures NoDash(Decimal(n))
  {
  }

  /** "A-B" with decimal years gives the range [A, B]. */
  lemma YearRangeOfDecimals(a: nat, b: nat, currentYear: int)
    ensures YearRange(Decimal(a) + "-" + Decimal(b), currentYear) == (Finite(a), Finite(b))
  {
    DecimalHasNoDash(a);
    DecimalHasNoDash(b);
    var year := Decimal(a) + "-" + Decimal(b);
    assert year != "All" by {
      assert year[0] != 'A';
    }
    SplitOfRange(Decimal(a), Decimal(b));
    ToNumberOfDecimal(a);
    ToNumberOfDecimal(b);
  }

  /** `(page - 1) * limit` with page and limit defaulted and converted. */
  function Window(p: Params, defaultLimit: int): (r: (Num, Num))
    ensures r.1 == Param(p.limit, defaultLimit)
    ensures p.page.None? && p.limit.None? ==> r == (Finite(0), Finite(defaultLimit))
  {
    var limit := Param(p.limit, defaultLimit);
    (Mul(Sub(Param(p.page, 1), 1), limit), limit)
  }

  /** paginateArtists: limit 10, a search on the name, the year range. */
  function Artists(p: Params, currentYear: int): (r: Page)
    ensures (r.skip, r.limit) == Window(p, 10)
    ensures r.find.fields == ["name"] && r.find.searchTerm == Or(p.searchTerm, "")
    ensures r.find.years == YearRange(Or(p.year, "All"), currentYear)
    ensures r.find.minRating == Param(p.rating, 0)
    ensures r.find.genre == GenreFilter(Or(p.genre, "All"))
    ensures r.sort == Sort(ArtistSortField(Or(p.orderBy, "Latest")), SortOrder(Or(p.orderBy, "Latest")))
  {
    var w := Window(p, 10);
    var orderBy := Or(p.orderBy, "Latest");
    Page(Find(Or(p.searchTerm, ""), ["name"], YearRange(Or(p.year, "All"), currentYear),
              Param(p.rating, 0), GenreFilter(Or(p.genre, "All"))),
         Sort(ArtistSortField(orderBy), SortOrder(orderBy)), w.0, w.1)
  }

  /** paginateAlbums: limit 16, a search on name or artist name, release
      dates from the first day of the first year to the end of the last. */
  function Albums(p: Params, currentYear: int): (r: Page)
    ensures (r.skip, r.limit) == Window(p, 16)
    ensures r.find.years == YearRange(Or(p.year, "All"), currentYear)
    ensures r.find.fields == ["name", "artistRefName"] && r.find.searchTerm == Or(p.searchTerm, "")
    ensures r.find.minRating == Param(p.rating, 0)
    ensures r.find.genre == GenreFilter(Or(p.genre, "All"))
    ensures r.sort == Sort(AlbumSortField(Or(p.orderBy, "Latest")), SortOrder(Or(p.orderBy, "Latest")))
  {
    var w := Window(p, 16);
    var orderBy := Or(p.orderBy, "Latest");
    Page(Find(Or(p.searchTerm, ""), ["name", "artistRefName"], YearRange(Or(p.year, "All"), currentYear),
              Param(p.rating, 0), GenreFilter(Or(p.genre, "All"))),
         Sort(AlbumSortField(orderBy), SortOrder(orderBy)), w.0, w.1)
  }

  /** paginateSongs as intended: limit 30, a search on name, album name or
      artist name, and the same release-year range as the album list. */
  function Songs(p: Params, currentYear: int): (r: Page)
    ensures (r.skip, r.limit) == Window(p, 30)
    ensures r.find.years == YearRange(Or(p.year, "All"), currentYear)
    ensures r.find.fields == ["name", "albumRefName", "artistRefName"] && r.find.searchTerm == Or(p.searchTerm, "")
    ensures r.find.minRating == Param(p.rating, 0)
    ensures r.find.genre == GenreFilter(Or(p.genre, "All"))
    ensures r.sort == Sort(SongSortField(Or(p.orderBy, "Latest")), SortOrder(Or(p.orderBy, "Latest")))
  {
    var w := Window(p, 30);
    var orderBy := Or(p.orderBy, "Latest");
    Page(Find(Or(p.searchTerm, ""), ["name", "albumRefName", "artistRefName"],
              YearRange(Or(p.year, "All"), currentYear),
              Param(p.rating, 0), GenreFilter(Or(p.genre, "All"))),
         Sort(SongSortField(orderBy), SortOrder(orderBy)), w.0, w.1)
  }

  const NoParams := Params(None, None, None, None, None, None, None)

  /** With no parameters: first page, all genres, rating at least 0, newest
      first, and each list's own page size. */
  lemma Defaults(currentYear: int)
    ensures Artists(NoParams, currentYear) ==
      Page(Find("", ["name"], (Finite(1900), Finite(currentYear)), Finite(0), None),
           Sort("createdAt", -1), Finite(0), Finite(10))
    ensures Albums(NoParams, currentYear).skip == Finite(0) && Albums(NoParams, currentYear).limit == Finite(16)
    ensures Songs(NoParams, currentYear).skip == Finite(0) && Songs(NoParams, currentYear).limit == Finite(30)
    ensures Albums(NoParams, currentYear).sort == Sort("createdAt", -1)
    ensures Songs(NoParams, currentYear).sort == Sort("createdAt", -1)
  {
  }

  /** Decimal page and limit parameters give the window
      `[(page - 1) * limit, page * limit)`. */
  lemma WindowOfDecimals(p: Params, page: nat, limit: nat, defaultLimit: int)
    requires p.page == Some(Decimal(page)) && p.limit == Some(Decimal(limit))
    ensures Window(p, defaultLimit) == (Finite((page - 1) * limit), Finite(limit))
  {
    assert Param(p.page, 1) == Finite(page) by {
      ToNumberOfNat(page);
    }
    assert Param(p.limit, defaultLimit) == Finite(limit) by {
      ToNumberOfNat(limit);
    }
    assert Mul(Sub(Finite(page), 1), Finite(limit)) == Finite((page - 1) * limit);
  }

  /** The song list ignores "Popularity", which the album list honours. */
  lemma PopularityDiffers(p: Params, currentYear: int)
    requires p.orderBy == Some("Popularity")
    ensures Albums(p, currentYear).sort.field == "ratingCount"
    ensures Songs(p, currentYear).sort.field == "createdAt"
  {
  }

  /** paginateSongs as written: each bound is `Number` of a date string
      ("2000-01-01"), never a number, before it reaches `moment`. */
  function SongYearsAsWritten(year: string, currentYear: int): (r: (Num, Num))
    ensures year == "All" ==> r == YearRange(year, currentYear)
    ensures year != "All" ==> r == (NaN, NaN)
  {
    if year == "All" then (Finite(1900), Finite(currentYear))
    else
      var parts := SplitDash(year);
      var upper := if |parts| > 1 then parts[1] else "undefined";
      DateSuffixIsNaN(parts[0]);
      DateSuffixIsNaN(upper);
      (ToNumber(parts[0] + "-01-01"), ToNumber(upper + "-01-01"))
  }

  /** The discrepancy: a well-formed range selects nothing usable for songs,
      while the same range gives the album list its years. */
  lemma SongYearsLost(a: nat, b: nat, currentYear: int)
    ensures SongYearsAsWritten(Decimal(a) + "-" + Decimal(b), currentYear) == (NaN, NaN)
    ensures YearRange(Decimal(a) + "-" + Decimal(b), currentYear) == (Finite(a), Finite(b))
  {
    assert (Decimal(a) + "-" + Decimal(b))[0] != 'A';
    YearRangeOfDecimals(a, b, currentYear);
  }
}

=== FILE: patterns.dfy ===
/** The two regular expressions the registration validator and the login
    dispatch test strings against, as predicates. */
module Patterns {
  import opened Text

  /** `[^\s@]`: neither white space nor '@'. */
  predicate Plain(c: char) {
    !IsSpace(c) && c != '@'
  }

  predicate AllPlain(s: string) {
    forall i :: 0 <= i < |s| ==> Plain(s[i])
  }

  /** `/^[^\s@]+@[^\s@]+\.[^\s@]+$/`: three non-empty plain parts, the
      first two joined by '@', the last two by '.'. */
  predicate EmailPattern(s: string) {
    exists k, j :: 0 < k && k + 1 < j && j + 1 < |s| && s[k] == '@' && s[j] == '.' &&
      AllPlain(s[..k]) && AllPlain(s[k + 1..j]) && AllPlain(s[j + 1..])
  }

  /** The same strings described by their parts: exactly one '@', not at
      the start, no white space anywhere, and after the '@' a '.' with text
      on both sides. */
  predicate EmailShape(s: string) {
    exists k :: 0 < k < |s| && s[k] == '@' &&
      (forall i :: 0 <= i < |s| && i != k ==> Plain(s[i])) &&
      (exists j :: k + 1 < j < |s| - 1 && s[j] == '.')
  }

  lemma PatternGivesShape(s: string)
    requires EmailPattern(s)
    ensures EmailShape(s)
  {
    var k, j :| 0 < k && k + 1 < j && j + 1 < |s| && s[k] == '@' && s[j] == '.' &&
      AllPlain(s[..k]) && AllPlain(s[k + 1..j]) && AllPlain(s[j + 1..]);
    forall i | 0 <= i < |s| && i != k
      ensures Plain(s[i])
    {
      if i < k {
        assert s[..k][i] == s[i];
      } else if i < j {
        assert s[k + 1..j][i - k - 1] == s[i];
      } else if i > j {
        assert s[j + 1..][i - j - 1] == s[i];
      }
    }
    assert k + 1 < j < |s| - 1 && s[j] == '.';
  }

  lemma ShapeGivesPattern(s: string)
    requires EmailShape(s)
    ensures EmailPattern(s)
  {
    var k :| 0 < k < |s| && s[k] == '@' &&
      (forall i :: 0 <= i < |s| && i != k ==> Plain(s[i])) &&
      (exists j :: k + 1 < j < |s| - 1 && s[j] == '.');
    var j :| k + 1 < j < |s| - 1 && s[j] == '.';
    assert AllPlain(s[..k]) by {
      forall i | 0 <= i < k ensures Plain(s[..k][i]) {
        assert s[..k][i] == s[i];
      }
    }
    var mid, last := s[k + 1..j], s[j + 1..];
    assert AllPlain(mid) by {
      forall i | 0 <= i < |mid| ensures Plain(mid[i]) {
        assert mid[i] == s[k + 1 + i];
      }
    }
    assert AllPlain(last) by {
      forall i | 0 <= i < |last| ensures Plain(last[i]) {
        assert last[i] == s[j + 1 + i];
      }
    }
  }

  /** What the e-mail pattern accepts, in both directions. */
  lemma EmailPatternIff(s: string)
    ensures EmailPattern(s) <==> EmailShape(s)
  {
    if EmailPattern(s) {
      PatternGivesShape(s);
    }
    if EmailShape(s) {
      ShapeGivesPattern(s);
    }
  }

  predicate UsernameChar(c: char) {
    IsLower(c) || IsDigit(c) || c == '_'
  }

  /** `/^[a-z0-9_]+$/`. */
  predicate UsernamePattern(s: string) {
    |s| > 0 && forall i :: 0 <= i < |s| ==> UsernameChar(s[i])
  }
}

=== FILE: rateable.dfy ===
/** A document that carries its own ratings (an album or a song): the
    embedded array, the summary `rating` recomputed from it, and the
    rate / remove-rating / view handlers of routes/album.js, which
    routes/song.js repeats line for line. */
module Rateable {
  import opened Wrappers
  import opened Ids
  import opened Aggregate
  import opened Embedded

  /** `info` holds the fields the rating handlers never touch. */
  datatype Doc<Info> = Doc(info: Info, rating: real, ratings: seq<Entry>)

  /** The invariant the handlers keep: one valid entry per user and a
      summary equal to the mean of the entries. */
  predicate Sound<Info>(d: Doc<Info>) {
    Unique(d.ratings) && AllValid(d.ratings) && d.rating == Mean(d.ratings, Score)
  }

  predicate AllSound<Info>(docs: map<Id, Doc<Info>>) {
    forall k :: k in docs ==> Sound(docs[k])
  }

  /** A fresh document: `rating` defaults to 0 and there are no ratings. */
  function New<Info>(info: Info): (d: Doc<Info>)
    ensures d.info == info && d.ratings == [] && d.rating == 0.0
    ensures Sound(d)
  {
    Doc(info, 0.0, [])
  }

  /** `updateRating`: the summary becomes the mean of the entries. */
  function UpdateRating<Info>(d: Doc<Info>): (r: Doc<Info>)
    ensures r == d.(rating := r.rating)
    ensures d.ratings == [] ==> r.rating == 0.0
    ensures d.ratings != [] ==> r.rating * (|d.ratings| as real) == Sum(d.ratings, Score)
    ensures d.ratings != [] && AllValid(d.ratings) ==> ValidRating(r.rating)
    ensures Unique(d.ratings) && AllValid(d.ratings) ==> Sound(r)
  {
    assert d.ratings != [] && AllValid(d.ratings) ==> ValidRating(Mean(d.ratings, Score)) by {
      if d.ratings != [] && AllValid(d.ratings) {
        MeanInRange(d.ratings, Score);
      }
    }
    d.(rating := Mean(d.ratings, Score))
  }

  /** The summary does not depend on the order of the entries. */
  lemma UpdateRatingOrderFree<Info>(a: Doc<Info>, b: Doc<Info>)
    requires multiset(a.ratings) == multiset(b.ratings)
    ensures UpdateRating(a).rating == UpdateRating(b).rating
  {
    MeanPermutation(a.ratings, b.ratings, Score);
  }

  /** What a handler sends back: the document and the caller's own value. */
  datatype Reply<Info> = Reply(doc: Doc<Info>, ratingOfRelevantUser: Option<real>)

  /** The rate handler on the found document: the array is updated and
      the summary recomputed. */
  function RateDoc<Info>(d: Doc<Info>, caller: Option<Id>, v: real): (r: Result<Doc<Info>, Fault>)
    ensures r.Success? <==> caller.Some? && ValidRating(v)
    ensures caller.None? && d.ratings != [] ==> r == Failure(TypeFault)
    ensures r.Success? ==> r.value.info == d.info
    ensures r.Success? ==> r.value.ratings == Upsert(d.ratings, caller.value, v)
    ensures r.Success? ==> r.value.rating == Mean(r.value.ratings, Score)
    ensures r.Success? ==> Lookup(r.value.ratings, caller.value) == Some(v)
    ensures r.Success? ==> forall w :: w != caller.value ==> Lookup(r.value.ratings, w) == Lookup(d.ratings, w)
    ensures r.Success? && Sound(d) ==> Sound(r.value)
  {
    match RateEntries(d.ratings, caller, v)
    case Failure(e) => Failure(e)
    case Success(es) => Success(UpdateRating(d.(ratings := es)))
  }

  /** The remove-rating handler on the found document. */
  function RemoveDoc<Info>(d: Doc<Info>, caller: Option<Id>): (r: Result<Doc<Info>, Fault>)
    ensures r.Success? <==> caller.Some? || d.ratings == []
    ensures r.Failure? ==> r.error == TypeFault
    ensures r.Success? ==> r.value.info == d.info
    ensures r.Success? && caller.Some? ==> r.value.ratings == RemoveUser(d.ratings, caller.value)
    ensures r.Success? && caller.None? ==> r.value.ratings == []
    ensures r.Success? ==> r.value.rating == Mean(r.value.ratings, Score)
    ensures r.Success? && caller.Some? ==> !Rated(r.value.ratings, caller.value)
    ensures r.Success? && caller.Some? ==>
      forall w :: w != caller.value ==> Lookup(r.value.ratings, w) == Lookup(d.ratings, w)
    ensures r.Success? && Sound(d) ==> Sound(r.value)
  {
    match RemoveEntries(d.ratings, caller)
    case Failure(e) => Failure(e)
    case Success(es) => Success(UpdateRating(d.(ratings := es)))
  }

  /** POST /rate/:id. A missing document makes `findOne` return null and the
      handler throw; otherwise the document is rated and saved. */
  function Rate<Info>(docs: map<Id, Doc<Info>>, id: Id, caller: Option<Id>, v: real)
    : (r: Result<(map<Id, Doc<Info>>, Reply<Info>), Fault>)
    ensures r.Success? <==> id in docs && caller.Some? && ValidRating(v)
    ensures id !in docs ==> r == Failure(TypeFault)
    ensures id in docs && caller.None? && docs[id].ratings != [] ==> r == Failure(TypeFault)
    ensures r.Success? ==> r.value.0.Keys == docs.Keys
    ensures r.Success? ==> forall k :: k in docs && k != id ==> r.value.0[k] == docs[k]
    ensures r.Success? ==> r.value.1 == Reply(r.value.0[id], Some(v))
    ensures r.Success? ==> r.value.0[id].info == docs[id].info
    ensures r.Success? ==> r.value.0[id].ratings == Upsert(docs[id].ratings, caller.value, v)
    ensures r.Success? ==> r.value.0[id].rating == Mean(r.value.0[id].ratings, Score)
    ensures r.Success? ==> Lookup(r.value.0[id].ratings, caller.value) == Some(v)
    ensures r.Success? ==>
      forall w :: w != caller.value ==> Lookup(r.value.0[id].ratings, w) == Lookup(docs[id].ratings, w)
    ensures r.Success? && AllSound(docs) ==> AllSound(r.value.0)
  {
    if id !in docs then Failure(TypeFault)
    else
      match RateDoc(docs[id], caller, v)
      case Failure(e) => Failure(e)
      case Success(d) => Success((docs[id := d], Reply(d, Some(v))))
  }

  /** DELETE /removeRating/:id: every entry of the caller is filtered out
      and the summary recomputed. */
  function RemoveRating<Info>(docs: map<Id, Doc<Info>>, id: Id, caller: Option<Id>)
    : (r: Result<(map<Id, Doc<Info>>, Doc<Info>), Fault>)
    ensures r.Success? <==> id in docs && (caller.Some? || docs[id].ratings == [])
    ensures r.Failure? ==> r.error == TypeFault
    ensures r.Success? ==> r.value.0.Keys == docs.Keys
    ensures r.Success? ==> forall k :: k in docs && k != id ==> r.value.0[k] == docs[k]
    ensures r.Success? ==> r.value.1 == r.value.0[id] && r.value.1.info == docs[id].info
    ensures r.Success? && caller.Some? ==> r.value.0[id].ratings == RemoveUser(docs[id].ratings, caller.value)
    ensures r.Success? ==> r.value.0[id].rating == Mean(r.value.0[id].ratings, Score)
    ensures r.Success? && caller.Some? ==> !Rated(r.value.0[id].ratings, caller.value)
    ensures r.Success? && caller.Some? ==>
      forall w :: w != caller.value ==> Lookup(r.value.0[id].ratings, w) == Lookup(docs[id].ratings, w)
    ensures r.Success? && AllSound(docs) ==> AllSound(r.value.0)
  {
    if id !in docs then Failure(TypeFault)
    else
      match RemoveDoc(docs[id], caller)
      case Failure(e) => Failure(e)
      case Success(d) => Success((docs[id := d], d))
  }

  /** GET /:id as intended: the caller's own value when they rated, none
      for an anonymous caller. */
  function View<Info>(docs: map<Id, Doc<Info>>, id: Id, caller: Option<Id>)
    : (r: Result<Reply<Info>, Fault>)
    ensures r.Success? <==> id in docs
    ensures r.Failure? ==> r.error == TypeFault
    ensures r.Success? ==> r.value.doc == docs[id]
    ensures r.Success? ==>
      (r.value.ratingOfRelevantUser.Some? <==> caller.Some? && Rated(docs[id].ratings, caller.value))
    ensures r.Success? && r.value.ratingOfRelevantUser.Some? ==>
      exists i :: 0 <= i < |docs[id].ratings| &&
        docs[id].ratings[i] == Entry(caller.value, r.value.ratingOfRelevantUser.value)
    ensures r.Success? ==>
      r.value.ratingOfRelevantUser == (if caller.Some? then Lookup(docs[id].ratings, caller.value) else None)
  {
    if id !in docs then Failure(TypeFault)
    else
      match caller
      case None => Success(Reply(docs[id], None))
      case Some(u) => Success(Reply(docs[id], Lookup(docs[id].ratings, u)))
  }

  /** GET /:id as written: the comparison calls `toString()` on
      `req.user?._id`, which is undefined for the empty-object user, so an
      anonymous view of a document with ratings throws. For songs and
      albums alike this is the handler's behaviour once Song.js loads (see
      `Songs.RateAsWritten`). */
  function ViewAsWritten<Info>(docs: map<Id, Doc<Info>>, id: Id, caller: Option<Id>)
    : (r: Result<Reply<Info>, Fault>)
    ensures r.Success? <==> id in docs && (caller.Some? || docs[id].ratings == [])
    ensures r.Success? ==> r == View(docs, id, caller)
  {
    if id !in docs then Failure(TypeFault)
    else if caller.None? && docs[id].ratings != [] then Failure(TypeFault)
    else View(docs, id, caller)
  }

  /** The discrepancy: an anonymous visitor cannot open a rated document. */
  lemma AnonymousViewFails<Info>(docs: map<Id, Doc<Info>>, id: Id)
    requires id in docs && docs[id].ratings != []
    ensures ViewAsWritten(docs, id, None) == Failure(TypeFault)
    ensures View(docs, id, None) == Success(Reply(docs[id], None))
  {
  }

  /** Viewing after rating shows the value just given. */
  lemma ViewAfterRate<Info>(docs: map<Id, Doc<Info>>, id: Id, u: Id, v: real)
    requires id in docs && ValidRating(v)
    ensures View(Rate(docs, id, Some(u), v).value.0, id, Some(u)).value.ratingOfRelevantUser == Some(v)
  {
  }

  /** A successful rating, unfolded. */
  lemma RateDocIs<Info>(d: Doc<Info>, u: Id, v: real)
    requires ValidRating(v)
    ensures RateDoc(d, Some(u), v) == Success(UpdateRating(d.(ratings := Upsert(d.ratings, u, v))))
  {
    assert RateEntries(d.ratings, Some(u), v) == Success(Upsert(d.ratings, u, v));
  }

  /** A removal by a known caller, unfolded. */
  lemma RemoveDocIs<Info>(d: Doc<Info>, u: Id)
    ensures RemoveDoc(d, Some(u)) == Success(UpdateRating(d.(ratings := RemoveUser(d.ratings, u))))
  {
    assert RemoveEntries(d.ratings, Some(u)) == Success(RemoveUser(d.ratings, u));
  }

  /** Rating again with the same value changes nothing. */
  lemma RateIdempotent<Info>(d: Doc<Info>, u: Id, v: real)
    requires ValidRating(v)
    ensures RateDoc(RateDoc(d, Some(u), v).value, Some(u), v) == RateDoc(d, Some(u), v)
  {
    var x := UpdateRating(d.(ratings := Upsert(d.ratings, u, v)));
    RateDocIs(d, u, v);
    RateDocIs(x, u, v);
    UpsertIdempotent(d.ratings, u, v);
    assert UpdateRating(x.(ratings := Upsert(x.ratings, u, v))) == x;
  }

  /** Removing a first rating restores the document exactly. */
  lemma RemoveUndoesFirstRate<Info>(d: Doc<Info>, u: Id, v: real)
    requires Sound(d) && ValidRating(v)
    requires !Rated(d.ratings, u)
    ensures RemoveDoc(RateDoc(d, Some(u), v).value, Some(u)) == Success(d)
  {
    var x := UpdateRating(d.(ratings := Upsert(d.ratings, u, v)));
    RateDocIs(d, u, v);
    RemoveDocIs(x, u);
    RemoveAfterFirstRating(d.ratings, u, v);
    assert x.(ratings := RemoveUser(x.ratings, u)) == d.(rating := x.rating);
    assert UpdateRating(d.(rating := x.rating)) == d;
  }

  lemma MeanOfOne(e: Entry)
    ensures Mean([e], Score) == e.rating
  {
    SumOfOne(e, Score);
  }

  lemma MeanOfTwo(e: Entry, f: Entry)
    ensures Mean([e, f], Score) == (e.rating + f.rating) / 2.0
  {
    assert [e, f] == [e] + [f];
    SumAppend([e], [f], Score);
    SumOfOne(e, Score);
    SumOfOne(f, Score);
  }

  lemma UpdateOfFirst(a: Id, b: Id)
    requires a != b
    ensures Upsert([Entry(a, 8.0), Entry(b, 6.0)], a, 10.0) == [Entry(a, 10.0), Entry(b, 6.0)]
  {
    assert FindIndex([Entry(a, 8.0), Entry(b, 6.0)], a) == Some(0);
  }

  lemma RemoveOfFirst(a: Id, b: Id)
    requires a != b
    ensures RemoveUser([Entry(a, 10.0), Entry(b, 6.0)], a) == [Entry(b, 6.0)]
  {
    var r := [Entry(a, 10.0), Entry(b, 6.0)];
    assert r[1..] == [Entry(b, 6.0)];
    assert r[1..][1..] == [];
  }

  /** Two users rating one document: A gives 8, B gives 6, A changes to
      10, A withdraws. The summary goes 8, 7, 8, 6. */
  lemma TwoRaters<Info>(info: Info, a: Id, b: Id)
    requires a != b
    ensures var d1 := RateDoc(New(info), Some(a), 8.0).value;
            var d2 := RateDoc(d1, Some(b), 6.0).value;
            var d3 := RateDoc(d2, Some(a), 10.0).value;
            var d4 := RemoveDoc(d3, Some(a)).value;
            d1.rating == 8.0 && d2.rating == 7.0 && d3.rating == 8.0 && d4.rating == 6.0
  {
    var d0 := New(info);
    RateDocIs(d0, a, 8.0);
    MeanOfOne(Entry(a, 8.0));
    var d1 := RateDoc(d0, Some(a), 8.0).value;
    assert d1.ratings == [Entry(a, 8.0)];
    RateDocIs(d1, b, 6.0);
    assert Upsert([Entry(a, 8.0)], b, 6.0) == [Entry(a, 8.0), Entry(b, 6.0)];
    MeanOfTwo(Entry(a, 8.0), Entry(b, 6.0));
    var d2 := RateDoc(d1, Some(b), 6.0).value;
    RateDocIs(d2, a, 10.0);
    UpdateOfFirst(a, b);
    MeanOfTwo(Entry(a, 10.0), Entry(b, 6.0));
    var d3 := RateDoc(d2, Some(a), 10.0).value;
    RemoveDocIs(d3, a);
    RemoveOfFirst(a, b);
    MeanOfOne(Entry(b, 6.0));
  }
}

=== FILE: rating_store.dfy ===
/** The normalized Rating collection (Rating.js): one record per
    (topic id, user id) rating, and the find / create / save / delete
    operations routes/artist.js performs on it. Records are kept in
    insertion order, which is the order `findOne` and `find` scan. */
module RatingStore {
  import opened Wrappers
  import opened Ids
  import opened Aggregate

  /** The frozen Topic object: three possible kinds of rated entity. */
  datatype Topic = Artist | Album | Song

  /** `topic` is optional: the schema spells its flag `require: true`,
      which Mongoose does not recognise, so only the enum applies. */
  datatype Record = Record(
    topic: Option<Topic>,
    topicId: Id,
    userId: Id,
    rating: real,
    createdAt: int,
    updatedAt: int)

  function Value(r: Record): real {
    r.rating
  }

  predicate Matches(r: Record, t: Id, u: Id) {
    r.topicId == t && r.userId == u
  }

  /** At most one record per (topic id, user id). */
  predicate Unique(store: seq<Record>) {
    forall i, j :: 0 <= i < j < |store| ==>
      !(store[i].topicId == store[j].topicId && store[i].userId == store[j].userId)
  }

  predicate AllValid(store: seq<Record>) {
    forall i :: 0 <= i < |store| ==> ValidRating(store[i].rating)
  }

  predicate Has(store: seq<Record>, t: Id, u: Id) {
    exists i :: 0 <= i < |store| && Matches(store[i], t, u)
  }

  /** `findOne({ topicId, userId })`: the first matching record. */
  function FindOne(store: seq<Record>, t: Id, u: Id): (r: Option<nat>)
    ensures r.Some? ==> r.value < |store| && Matches(store[r.value], t, u)
    ensures r.Some? ==> forall j :: 0 <= j < r.value ==> !Matches(store[j], t, u)
    ensures r.None? ==> !Has(store, t, u)
  {
    if store == [] then None
    else if Matches(store[0], t, u) then Some(0)
    else match FindOne(store[1..], t, u)
      case None => None
      case Some(i) => Some(i + 1)
  }

  /** `find({ topicId })`: every record of one topic, in store order. */
  function ForTopic(store: seq<Record>, t: Id): (r: seq<Record>)
    ensures |r| <= |store|
    ensures forall i :: 0 <= i < |r| ==> r[i].topicId == t
  {
    if store == [] then []
    else if store[0].topicId == t then [store[0]] + ForTopic(store[1..], t)
    else ForTopic(store[1..], t)
  }

  /** `ForTopic` keeps exactly the records of its topic. */
  lemma {:induction false} ForTopicMembers(store: seq<Record>, t: Id, x: Record)
    ensures x in ForTopic(store, t) <==> x in store && x.topicId == t
  {
    if store != [] {
      ForTopicMembers(store[1..], t, x);
      assert x in store <==> x == store[0] || x in store[1..];
    }
  }

  /** Rate: change the value of the existing record (saved, and so
      re-stamped, only when the value differs) or create a new artist
      record; a value out of bounds fails validation and writes nothing. */
  function Upsert(store: seq<Record>, t: Id, u: Id, v: real, now: int): (r: Result<seq<Record>, Fault>)
    ensures r.Success? <==> ValidRating(v)
    ensures r.Failure? ==> r.error == ValidationFault
    ensures r.Success? && Has(store, t, u) ==> |r.value| == |store|
    ensures r.Success? && !Has(store, t, u) ==>
      r.value == store + [Record(Some(Artist), t, u, v, now, now)]
    ensures r.Success? ==> forall i :: 0 <= i < |store| && !Matches(store[i], t, u) ==> r.value[i] == store[i]
    ensures r.Success? ==> forall i :: 0 <= i < |store| ==>
      r.value[i].topicId == store[i].topicId && r.value[i].userId == store[i].userId
  {
    if !ValidRating(v) then Failure(ValidationFault)
    else match FindOne(store, t, u)
      case Some(i) =>
        if store[i].rating == v then Success(store)
        else Success(store[i := store[i].(rating := v, updatedAt := now)])
      case None => Success(store + [Record(Some(Artist), t, u, v, now, now)])
  }

  /** `findOneAndDelete({ topicId, userId })`: the first match goes. */
  function Delete(store: seq<Record>, t: Id, u: Id): (r: seq<Record>)
    ensures Has(store, t, u) ==> |r| == |store| - 1
    ensures !Has(store, t, u) ==> r == store
    ensures forall x :: x in store && !Matches(x, t, u) ==> x in r
    ensures forall x :: x in r ==> x in store
    ensures Has(store, t, u) ==>
      var i := FindOne(store, t, u).value;
      Matches(store[i], t, u) && r == store[..i] + store[i + 1..]
  {
    match FindOne(store, t, u)
      case None => store
      case Some(i) => store[..i] + store[i + 1..]
  }

  /** After a successful rate the caller's record holds the new value. */
  lemma UpsertFinds(store: seq<Record>, t: Id, u: Id, v: real, now: int)
    requires ValidRating(v)
    ensures var s := Upsert(store, t, u, v, now).value;
      FindOne(s, t, u).Some? && s[FindOne(s, t, u).value].rating == v
  {
    var s := Upsert(store, t, u, v, now).value;
    match FindOne(store, t, u)
    case Some(i) =>
      FindSame(store, s, t, u);
    case None =>
      FindAppend(store, Record(Some(Artist), t, u, v, now, now));
  }

  /** `FindOne` only looks at topic and user ids. */
  lemma {:induction false} FindSame(a: seq<Record>, b: seq<Record>, t: Id, u: Id)
    requires |a| == |b|
    requires forall i :: 0 <= i < |a| ==> a[i].topicId == b[i].topicId && a[i].userId == b[i].userId
    ensures FindOne(a, t, u) == FindOne(b, t, u)
  {
    if a != [] {
      FindSame(a[1..], b[1..], t, u);
    }
  }

  lemma {:induction false} FindAppend(store: seq<Record>, x: Record)
    requires !Has(store, x.topicId, x.userId)
    ensures FindOne(store + [x], x.topicId, x.userId) == Some(|store|)
  {
    if store == [] {
      assert store + [x] == [x];
    } else {
      assert (store + [x])[1..] == store[1..] + [x];
      FindAppend(store[1..], x);
    }
  }

  lemma UpsertUnique(store: seq<Record>, t: Id, u: Id, v: real, now: int)
    requires Unique(store) && ValidRating(v)
    ensures Unique(Upsert(store, t, u, v, now).value)
  {
  }

  lemma UpsertValid(store: seq<Record>, t: Id, u: Id, v: real, now: int)
    requires AllValid(store) && ValidRating(v)
    ensures AllValid(Upsert(store, t, u, v, now).value)
  {
    var s := Upsert(store, t, u, v, now).value;
    forall i | 0 <= i < |s|
      ensures ValidRating(s[i].rating)
    {
      if i < |store| && !Matches(store[i], t, u) {
        assert s[i] == store[i];
      }
    }
  }

  /** Rating again with the same value writes nothing, not even a new
      `updatedAt`, whatever the clock says. */
  lemma UpsertIdempotent(store: seq<Record>, t: Id, u: Id, v: real, now: int, later: int)
    requires ValidRating(v)
    ensures var s := Upsert(store, t, u, v, now).value;
      Upsert(s, t, u, v, later) == Success(s)
  {
    UpsertFinds(store, t, u, v, now);
  }

  /** Records of other topics are never touched by a rate. */
  lemma {:induction false} UpsertOtherTopic(store: seq<Record>, t: Id, u: Id, v: real, now: int, other: Id)
    requires ValidRating(v) && other != t
    ensures ForTopic(Upsert(store, t, u, v, now).value, other) == ForTopic(store, other)
  {
    var s := Upsert(store, t, u, v, now).value;
    if Has(store, t, u) {
      ForTopicSame(store, s, other);
    } else {
      ForTopicAppend(store, Record(Some(Artist), t, u, v, now, now), other);
    }
  }

  lemma {:induction false} ForTopicSame(a: seq<Record>, b: seq<Record>, other: Id)
    requires |a| == |b|
    requires forall i :: 0 <= i < |a| ==> a[i].topicId == b[i].topicId
    requires forall i :: 0 <= i < |a| && a[i].topicId == other ==> a[i] == b[i]
    ensures ForTopic(a, other) == ForTopic(b, other)
  {
    if a != [] {
      ForTopicSame(a[1..], b[1..], other);
    }
  }

  lemma {:induction false} ForTopicAppend(store: seq<Record>, x: Record, t: Id)
    ensures ForTopic(store + [x], t) == ForTopic(store, t) + ForTopic([x], t)
  {
    if store == [] {
      assert store + [x] == [x];
    } else {
      assert (store + [x])[1..] == store[1..] + [x];
      assert (store + [x])[0] == store[0];
      ForTopicAppend(store[1..], x, t);
    }
  }

  lemma {:induction false} ForTopicSplit(a: seq<Record>, b: seq<Record>, t: Id)
    ensures ForTopic(a + b, t) == ForTopic(a, t) + ForTopic(b, t)
  {
    if a == [] {
      assert a + b == b;
    } else {
      assert (a + b)[1..] == a[1..] + b;
      assert (a + b)[0] == a[0];
      ForTopicSplit(a[1..], b, t);
    }
  }

  /** A delete removes one record of its topic and no record of another. */
  lemma DeleteOtherTopic(store: seq<Record>, t: Id, u: Id, other: Id)
    requires other != t
    ensures ForTopic(Delete(store, t, u), other) == ForTopic(store, other)
  {
    match FindOne(store, t, u)
    case None =>
    case Some(i) =>
      var pre, x, post := store[..i], store[i], store[i + 1..];
      assert store == (pre + [x]) + post;
      assert Delete(store, t, u) == pre + post;
      assert x.topicId == t;
      ForTopicSplit(pre + [x], post, other);
      ForTopicSplit(pre, [x], other);
      ForTopicSplit(pre, post, other);
      ForTopicOfOther(x, other);
      assert ForTopic(pre + [x], other) == ForTopic(pre, other);
  }

  lemma ForTopicOfOther(x: Record, other: Id)
    requires x.topicId != other
    ensures ForTopic([x], other) == []
  {
    assert [x][1..] == [];
  }

  lemma DeleteUnique(store: seq<Record>, t: Id, u: Id)
    requires Unique(store)
    ensures Unique(Delete(store, t, u))
    ensures !Has(Delete(store, t, u), t, u)
  {
    match FindOne(store, t, u)
    case None =>
    case Some(i) =>
      var r := Delete(store, t, u);
      assert forall j :: 0 <= j < |r| ==> r[j] == (if j < i then store[j] else store[j + 1]);
  }

  lemma DeleteValid(store: seq<Record>, t: Id, u: Id)
    requires AllValid(store)
    ensures AllValid(Delete(store, t, u))
  {
    var r := Delete(store, t, u);
    forall j | 0 <= j < |r|
      ensures ValidRating(r[j].rating)
    {
      assert r[j] in store;
    }
  }

  /** A first rating undone by a removal leaves the store as it was. */
  lemma DeleteUndoesCreate(store: seq<Record>, t: Id, u: Id, v: real, now: int)
    requires ValidRating(v) && !Has(store, t, u)
    ensures Delete(Upsert(store, t, u, v, now).value, t, u) == store
  {
    var x := Record(Some(Artist), t, u, v, now, now);
    FindAppend(store, x);
    assert (store + [x])[..|store|] == store;
  }
}

=== FILE: register.dfy ===
/** The registration validator (validateRegister.js): a fixed chain of
    checks whose first failure answers the request. */
module Register {
  import opened Wrappers
  import opened Http
  import opened Text
  import opened Patterns

  /** The body fields; a field is absent (`None`) or a string. */
  datatype Form = Form(
    username: Option<string>,
    email: Option<string>,
    password: Option<string>,
    confirmPassword: Option<string>)

  predicate Filled(f: Form) {
    Truthy(f.username) && Truthy(f.email) && Truthy(f.password) && Truthy(f.confirmPassword)
  }

  const FillAll := "Please fill in all fields"
  const BadUsername := "Please use only lowercase letters, numbers and _ (underscore) in username"
  const BadEmail := "The e-mail must be a valid e-mail address"
  const NoMatch := "The password confirmation does not match"
  const UsernameTaken := "Username already taken"
  const EmailTaken := "E-mail already registered"

  function Fail(message: string): Verdict {
    Reject(400, "Failed", message)
  }

  /** The chain. `takenNames` and `takenEmails` are the usernames and
      e-mails of the existing users. */
  function Validate(f: Form, takenNames: set<string>, takenEmails: set<string>): (r: Verdict)
    ensures r.Next? <==>
      Filled(f) && UsernamePattern(f.username.value) && EmailPattern(f.email.value) &&
      f.password == f.confirmPassword &&
      f.username.value !in takenNames && f.email.value !in takenEmails
    ensures r.Reject? ==> r.code == 400 && r.status == "Failed"
    ensures !Filled(f) ==> r.message == FillAll
    ensures Filled(f) && !UsernamePattern(f.username.value) ==> r.message == BadUsername
    ensures Filled(f) && UsernamePattern(f.username.value) && !EmailPattern(f.email.value) ==>
      r.message == BadEmail
    ensures (Filled(f) && UsernamePattern(f.username.value) && EmailPattern(f.email.value) &&
             f.password != f.confirmPassword) ==>
      r.message == NoMatch
    ensures (Filled(f) && UsernamePattern(f.username.value) && EmailPattern(f.email.value) &&
             f.password == f.confirmPassword && f.username.value in takenNames) ==>
      r.message == UsernameTaken
    ensures (Filled(f) && UsernamePattern(f.username.value) && EmailPattern(f.email.value) &&
             f.password == f.confirmPassword && f.username.value !in takenNames &&
             f.email.value in takenEmails) ==>
      r.message == EmailTaken
    ensures r.Reject? && r.message == UsernameTaken ==>
      f.username.value in takenNames && f.password == f.confirmPassword
    ensures r.Reject? && r.message == EmailTaken ==>
      f.email.value in takenEmails && f.username.value !in takenNames
  {
    if !Filled(f) then Fail(FillAll)
    else if !UsernamePattern(f.username.value) then Fail(BadUsername)
    else if !EmailPattern(f.email.value) then Fail(BadEmail)
    else if f.password != f.confirmPassword then Fail(NoMatch)
    else if f.username.value in takenNames then Fail(UsernameTaken)
    else if f.email.value in takenEmails then Fail(EmailTaken)
    else Next
  }

  /** An accepted registration carries a username of lowercase letters,
      digits and underscores and an e-mail with one '@', no white space,
      and a dotted part after the '@'. */
  lemma AcceptedShape(f: Form, takenNames: set<string>, takenEmails: set<string>)
    requires Validate(f, takenNames, takenEmails) == Next
    ensures forall i :: 0 <= i < |f.username.value| ==> UsernameChar(f.username.value[i])
    ensures EmailShape(f.email.value)
  {
    EmailPatternIff(f.email.value);
  }
}

=== FILE: slug.dfy ===
/** The slug transliterator of `src/utils/slugify.js`: a pure pipeline of
    lower-casing, trimming, Turkish transliteration, stripping to
    `[a-z0-9 -]`, and collapsing runs of white space and of hyphens. */
module Slug {
  import opened Text

  /** Steps 3-8: the six Turkish letter pairs and their ASCII letters. */
  function Transliterate(c: char): (r: char)
    ensures IsAlnum(c) ==> r == c
    ensures c != r ==> IsLower(r)
  {
    if c == '\U{015F}' || c == '\U{015E}' then 's'       // ş Ş
    else if c == '\U{0131}' || c == '\U{0130}' then 'i'  // ı İ
    else if c == '\U{00FC}' || c == '\U{00DC}' then 'u'  // ü Ü
    else if c == '\U{00F6}' || c == '\U{00D6}' then 'o'  // ö Ö
    else if c == '\U{00E7}' || c == '\U{00C7}' then 'c'  // ç Ç
    else if c == '\U{011F}' || c == '\U{011E}' then 'g'  // ğ Ğ
    else c
  }

  function TransliterateAll(s: string): (r: string)
    ensures |r| == |s|
  {
    seq(|s|, i requires 0 <= i < |s| => Transliterate(s[i]))
  }

  lemma {:induction false} TransliterateAppend(a: string, b: string)
    ensures TransliterateAll(a + b) == TransliterateAll(a) + TransliterateAll(b)
  {
    var l, r := TransliterateAll(a + b), TransliterateAll(a) + TransliterateAll(b);
    assert |l| == |r|;
    forall i | 0 <= i < |l| ensures l[i] == r[i] {
      if i < |a| { assert (a + b)[i] == a[i]; } else { assert (a + b)[i] == b[i - |a|]; }
    }
  }

  /** The characters that survive step 11. */
  predicate Allowed(c: char) {
    IsLower(c) || IsDigit(c) || c == ' ' || c == '-'
  }

  /** Step 11: every character outside `[a-z0-9 -]` is dropped. */
  function Strip(s: string): (r: string)
    ensures forall i :: 0 <= i < |r| ==> Allowed(r[i])
  {
    if s == [] then []
    else if Allowed(s[0]) then [s[0]] + Strip(s[1..])
    else Strip(s[1..])
  }

  predicate IsHyphen(c: char) { c == '-' }

  /** Steps 12 and 13: every maximal run of characters satisfying `isRun`
      becomes a single '-'. `inRun` records that the character just before
      `s` belonged to a run that has already been replaced. */
  function ReplaceRuns(s: string, isRun: char -> bool, inRun: bool): (r: string)
    ensures |r| <= |s|
  {
    if s == [] then []
    else if isRun(s[0]) then
      if inRun then ReplaceRuns(s[1..], isRun, true)
      else ['-'] + ReplaceRuns(s[1..], isRun, true)
    else [s[0]] + ReplaceRuns(s[1..], isRun, false)
  }

  /** Every character of `r` is a '-' or a character satisfying `ok` that
      is not a run character. */
  predicate RunsGone(r: string, isRun: char -> bool, ok: char -> bool) {
    forall i :: 0 <= i < |r| ==> r[i] == '-' || (ok(r[i]) && !isRun(r[i]))
  }

  /** No two run characters are adjacent in `r`. */
  predicate NoAdjacentRuns(r: string, isRun: char -> bool) {
    forall i :: 0 <= i < |r| - 1 ==> !(isRun(r[i]) && isRun(r[i + 1]))
  }

  /** What replacing runs guarantees: no character of a run survives, two
      run characters are never adjacent in the result (a '-' that stands
      for a run is followed by a character outside the run), and every
      other character comes from the input. */
  lemma {:induction false} ReplaceRunsShape(s: string, isRun: char -> bool, inRun: bool, ok: char -> bool)
    requires forall i :: 0 <= i < |s| ==> ok(s[i])
    ensures RunsGone(ReplaceRuns(s, isRun, inRun), isRun, ok)
    ensures NoAdjacentRuns(ReplaceRuns(s, isRun, inRun), isRun)
    ensures inRun && ReplaceRuns(s, isRun, inRun) != [] ==> !isRun(ReplaceRuns(s, isRun, inRun)[0])
  {
    if s != [] {
      var t := s[1..];
      assert forall i :: 0 <= i < |t| ==> ok(t[i]) by {
        forall i | 0 <= i < |t| ensures ok(t[i]) { assert t[i] == s[i + 1]; }
      }
      var rest := ReplaceRuns(t, isRun, isRun(s[0]));
      ReplaceRunsShape(t, isRun, isRun(s[0]), ok);
      var r := ReplaceRuns(s, isRun, inRun);
      if isRun(s[0]) && inRun {
        assert r == rest;
      } else {
        var h := if isRun(s[0]) then '-' else s[0];
        assert r == [h] + rest;
        assert h == '-' || (ok(h) && !isRun(h));
        forall i | 0 <= i < |r| ensures r[i] == '-' || (ok(r[i]) && !isRun(r[i])) {
          if i > 0 { assert r[i] == rest[i - 1]; }
        }
        forall i | 0 <= i < |r| - 1 ensures !(isRun(r[i]) && isRun(r[i + 1])) {
          if i > 0 { assert r[i] == rest[i - 1] && r[i + 1] == rest[i]; }
        }
      }
    }
  }

  /** `slugify(str)`. */
  function Slugify(s: string): string {
    var stripped := Strip(TransliterateAll(Trim(Lower(s))));
    ReplaceRuns(ReplaceRuns(stripped, IsSpace, false), IsHyphen, false)
  }

  predicate SlugChar(c: char) { IsLower(c) || IsDigit(c) || c == '-' }

  predicate NoDoubleHyphen(s: string) {
    forall i :: 0 <= i < |s| - 1 ==> !(s[i] == '-' && s[i + 1] == '-')
  }

  /** A well-formed slug: only `[a-z0-9-]`, never two hyphens in a row. */
  predicate IsSlug(s: string) {
    (forall i :: 0 <= i < |s| ==> SlugChar(s[i])) && NoDoubleHyphen(s)
  }

  /** Every slug is made of `[a-z0-9-]` only (hence has no spaces) and has
      no two consecutive hyphens. */
  lemma {:induction false} SlugifyIsSlug(s: string)
    ensures IsSlug(Slugify(s))
    ensures forall i :: 0 <= i < |Slugify(s)| ==> Slugify(s)[i] != ' '
  {
    var stripped := Strip(TransliterateAll(Trim(Lower(s))));
    ReplaceRunsShape(stripped, IsSpace, false, Allowed);
    var spaced := ReplaceRuns(stripped, IsSpace, false);
    assert forall i :: 0 <= i < |spaced| ==> SlugChar(spaced[i]) by {
      forall i | 0 <= i < |spaced| ensures SlugChar(spaced[i]) {
        assert RunsGone(spaced, IsSpace, Allowed);
      }
    }
    ReplaceRunsShape(spaced, IsHyphen, false, SlugChar);
    var r := ReplaceRuns(spaced, IsHyphen, false);
    assert r == Slugify(s);
    forall i | 0 <= i < |r| ensures SlugChar(r[i]) {
      assert RunsGone(r, IsHyphen, SlugChar);
    }
    forall i | 0 <= i < |r| - 1 ensures !(r[i] == '-' && r[i + 1] == '-') {
      assert NoAdjacentRuns(r, IsHyphen);
    }
  }

  // ---------------------------------------------------------------------
  // A run of spaces becomes exactly one hyphen.

  predicate AllRun(s: string, isRun: char -> bool) {
    forall i :: 0 <= i < |s| ==> isRun(s[i])
  }

  /** A non-empty maximal run, wherever the previous run ended, is replaced
      by one '-' and the text after it is processed as if the run were not
      there. */
  lemma {:induction false} RunBecomesOneHyphen(run: string, rest: string, isRun: char -> bool)
    requires run != [] && AllRun(run, isRun)
    requires rest == [] || !isRun(rest[0])
    ensures ReplaceRuns(run + rest, isRun, false) == ['-'] + ReplaceRuns(rest, isRun, false)
  {
    assert (run + rest)[0] == run[0];
    assert (run + rest)[1..] == run[1..] + rest;
    SkipRun(run[1..], rest, isRun);
  }

  lemma {:induction false} SkipRun(run: string, rest: string, isRun: char -> bool)
    requires AllRun(run, isRun)
    requires rest == [] || !isRun(rest[0])
    ensures ReplaceRuns(run + rest, isRun, true) == ReplaceRuns(rest, isRun, false)
  {
    if run == [] {
      assert run + rest == rest;
    } else {
      assert (run + rest)[0] == run[0];
      assert (run + rest)[1..] == run[1..] + rest;
      SkipRun(run[1..], rest, isRun);
    }
  }

  // ---------------------------------------------------------------------
  // The alphanumerics of a slug are those of its input, in order.

  /** The ASCII letters and digits of `s`, in order. */
  function Alnums(s: string): (r: string)
    ensures |r| <= |s|
  {
    if s == [] then [] else (if IsAlnum(s[0]) then [s[0]] else []) + Alnums(s[1..])
  }

  /** What one input character contributes to the letters and digits of
      its slug: ASCII letters lower-cased, digits as they are, the Turkish
      letters (either case) as their ASCII letter, U+0130 as `i`, the
      Kelvin sign as `k`, and nothing for every other character. */
  function KeptChar(c: char): string {
    if IsUpper(c) then [(c as int + 32) as char]
    else if IsAlnum(c) then [c]
    else if c == '\U{015F}' || c == '\U{015E}' then "s"
    else if c == '\U{0131}' || c == '\U{0130}' then "i"
    else if c == '\U{00FC}' || c == '\U{00DC}' then "u"
    else if c == '\U{00F6}' || c == '\U{00D6}' then "o"
    else if c == '\U{00E7}' || c == '\U{00C7}' then "c"
    else if c == '\U{011F}' || c == '\U{011E}' then "g"
    else if c == '\U{212A}' then "k"
    else []
  }

  function Kept(s: string): string {
    if s == [] then [] else KeptChar(s[0]) + Kept(s[1..])
  }

  lemma {:induction false} AlnumsAppend(a: string, b: string)
    ensures Alnums(a + b) == Alnums(a) + Alnums(b)
  {
    if a == [] {
      assert a + b == b;
    } else {
      var h := if IsAlnum(a[0]) then [a[0]] else [];
      assert (a + b)[0] == a[0];
      assert (a + b)[1..] == a[1..] + b;
      assert Alnums(a + b) == h + Alnums(a[1..] + b);
      AlnumsAppend(a[1..], b);
      assert Alnums(a) == h + Alnums(a[1..]);
    }
  }

  lemma {:induction false} AlnumsOfStrip(s: string)
    ensures Alnums(Strip(s)) == Alnums(s)
  {
    if s != [] {
      AlnumsOfStrip(s[1..]);
    }
  }

  lemma {:induction false} AlnumsOfReplaceRuns(s: string, isRun: char -> bool, inRun: bool)
    requires forall c :: isRun(c) ==> !IsAlnum(c)
    ensures Alnums(ReplaceRuns(s, isRun, inRun)) == Alnums(s)
  {
    if s != [] {
      AlnumsOfReplaceRuns(s[1..], isRun, isRun(s[0]));
      var r := ReplaceRuns(s, isRun, inRun);
      if isRun(s[0]) && !inRun {
        assert r == ['-'] + ReplaceRuns(s[1..], isRun, true);
        AlnumsAppend(['-'], ReplaceRuns(s[1..], isRun, true));
      }
    }
  }

  lemma {:induction false} AlnumsOfSpaces(s: string)
    requires AllSpace(s)
    ensures Alnums(TransliterateAll(s)) == []
  {
    if s != [] {
      assert TransliterateAll(s)[1..] == TransliterateAll(s[1..]);
      AlnumsOfSpaces(s[1..]);
    }
  }

  lemma {:induction false} AlnumsOfTrim(x: string)
    ensures Alnums(TransliterateAll(Trim(x))) == Alnums(TransliterateAll(x))
  {
    var i := LeadingSpaces(x);
    var t := x[i..];
    var j := |t| - TrailingSpaces(t);
    assert Trim(x) == t[..j];
    assert x == x[..i] + (t[..j] + t[j..]);
    TransliterateAppend(x[..i], t[..j] + t[j..]);
    TransliterateAppend(t[..j], t[j..]);
    AlnumsAppend(TransliterateAll(x[..i]), TransliterateAll(t[..j]) + TransliterateAll(t[j..]));
    AlnumsAppend(TransliterateAll(t[..j]), TransliterateAll(t[j..]));
    AlnumsOfSpaces(x[..i]);
    AlnumsOfSpaces(t[j..]);
  }

  lemma AlnumsOfLowerChar(c: char)
    ensures Alnums(TransliterateAll(LowerChar(c))) == KeptChar(c)
  {
  }

  lemma {:induction false} AlnumsOfLower(s: string)
    ensures Alnums(TransliterateAll(Lower(s))) == Kept(s)
  {
    if s != [] {
      TransliterateAppend(LowerChar(s[0]), Lower(s[1..]));
      AlnumsAppend(TransliterateAll(LowerChar(s[0])), TransliterateAll(Lower(s[1..])));
      AlnumsOfLowerChar(s[0]);
      AlnumsOfLower(s[1..]);
    }
  }

  /** The letters and digits of the slug are exactly the input's ASCII
      letters (lower-cased), digits and transliterated Turkish letters, in
      their original order. */
  lemma {:induction false} AlnumsOfSlug(s: string)
    ensures Alnums(Slugify(s)) == Kept(s)
  {
    var stripped := Strip(TransliterateAll(Trim(Lower(s))));
    var spaced := ReplaceRuns(stripped, IsSpace, false);
    AlnumsOfReplaceRuns(spaced, IsHyphen, false);
    AlnumsOfReplaceRuns(stripped, IsSpace, false);
    AlnumsOfStrip(TransliterateAll(Trim(Lower(s))));
    AlnumsOfTrim(Lower(s));
    AlnumsOfLower(s);
  }

  // ---------------------------------------------------------------------
  // Idempotence: every step leaves a well-formed slug as it is.

  lemma {:induction false} StripKeepsAllowed(s: string)
    requires forall i :: 0 <= i < |s| ==> Allowed(s[i])
    ensures Strip(s) == s
  {
    if s != [] {
      StripKeepsAllowed(s[1..]);
    }
  }

  lemma {:induction false} ReplaceRunsWithoutRuns(s: string, isRun: char -> bool, inRun: bool)
    requires forall i :: 0 <= i < |s| ==> !isRun(s[i])
    ensures ReplaceRuns(s, isRun, inRun) == s
  {
    if s != [] {
      ReplaceRunsWithoutRuns(s[1..], isRun, false);
    }
  }

  /** Runs of length one made of '-' are replaced by themselves. */
  lemma {:induction false} ReplaceRunsOfSingles(s: string, isRun: char -> bool, inRun: bool)
    requires forall c :: isRun(c) ==> c == '-'
    requires forall i :: 0 <= i < |s| - 1 ==> !(isRun(s[i]) && isRun(s[i + 1]))
    requires inRun ==> s == [] || !isRun(s[0])
    ensures ReplaceRuns(s, isRun, inRun) == s
  {
    if s != [] {
      ReplaceRunsOfSingles(s[1..], isRun, isRun(s[0]));
    }
  }

  /** Slugifying a slug gives it back unchanged. */
  lemma {:induction false} SlugifyFixesSlugs(t: string)
    requires IsSlug(t)
    ensures Slugify(t) == t
  {
    assert Strip(TransliterateAll(Trim(Lower(t)))) == t by {
      LowerOfSlug(t);
      TrimOfSlug(t);
      TransliterateOfSlug(t);
      StripOfSlug(t);
    }
    assert ReplaceRuns(t, IsSpace, false) == t by {
      ReplaceRunsWithoutRuns(t, IsSpace, false);
    }
    assert ReplaceRuns(t, IsHyphen, false) == t by {
      ReplaceRunsOfSingles(t, IsHyphen, false);
    }
  }

  lemma {:induction false} LowerOfSlug(t: string)
    requires IsSlug(t)
    ensures Lower(t) == t
  {
    forall i | 0 <= i < |t| ensures LowerFixed(t[i]) {
      assert SlugChar(t[i]);
    }
    LowerOfFixed(t);
  }

  lemma {:induction false} StripOfSlug(t: string)
    requires IsSlug(t)
    ensures Strip(t) == t
  {
    forall i | 0 <= i < |t| ensures Allowed(t[i]) {
      assert SlugChar(t[i]);
    }
    StripKeepsAllowed(t);
  }

  lemma {:induction false} TrimOfSlug(t: string)
    requires IsSlug(t)
    ensures Trim(t) == t
  {
    if t != [] {
      assert SlugChar(t[0]) && SlugChar(t[|t| - 1]);
    }
    assert LeadingSpaces(t) == 0;
    assert TrimStart(t) == t;
    assert TrailingSpaces(t) == 0;
    assert TrimEnd(t) == t;
  }

  lemma {:induction false} TransliterateKeeps(t: string)
    requires forall i :: 0 <= i < |t| ==> Transliterate(t[i]) == t[i]
    ensures TransliterateAll(t) == t
  {
  }

  lemma {:induction false} TransliterateOfSlug(t: string)
    requires IsSlug(t)
    ensures TransliterateAll(t) == t
  {
    forall i | 0 <= i < |t| ensures Transliterate(t[i]) == t[i] {
      assert SlugChar(t[i]);
    }
    TransliterateKeeps(t);
  }

  /** `slugify(slugify(s)) == slugify(s)`. */
  lemma {:induction false} SlugifyIdempotent(s: string)
    ensures Slugify(Slugify(s)) == Slugify(s)
  {
    SlugifyIsSlug(s);
    SlugifyFixesSlugs(Slugify(s));
  }

  // ---------------------------------------------------------------------
  // Surrounding white space does not change the slug.

  lemma {:induction false} LowerOfSpaces(w: string)
    requires AllSpace(w)
    ensures Lower(w) == w
  {
    assert forall i :: 0 <= i < |w| ==> LowerFixed(w[i]);
    LowerOfFixed(w);
  }

  lemma {:induction false} LeadingSpacesAppend(a: string, b: string)
    ensures LeadingSpaces(a + b) ==
      if LeadingSpaces(a) < |a| then LeadingSpaces(a) else |a| + LeadingSpaces(b)
  {
    if a == [] {
      assert a + b == b;
    } else {
      assert (a + b)[0] == a[0];
      assert (a + b)[1..] == a[1..] + b;
      LeadingSpacesAppend(a[1..], b);
    }
  }

  /** Spaces appended to a string add to its trailing run. */
  lemma {:induction false} TrailingAfterSpaces(y: string, w: string)
    requires AllSpace(w)
    ensures TrailingSpaces(y + w) == |w| + TrailingSpaces(y)
    decreases |w|
  {
    if w == [] {
      assert y + w == y;
    } else {
      var init := w[..|w| - 1];
      var s := y + w;
      assert IsSpace(s[|s| - 1]);
      assert s[..|s| - 1] == y + init;
      assert TrailingSpaces(s) == 1 + TrailingSpaces(y + init);
      TrailingAfterSpaces(y, init);
    }
  }

  lemma {:induction false} LeadingOfSpaces(w: string)
    requires AllSpace(w)
    ensures LeadingSpaces(w) == |w|
  {
    if w != [] {
      LeadingOfSpaces(w[1..]);
    }
  }

  lemma {:induction false} TrailingOfSpaces(w: string)
    requires AllSpace(w)
    ensures TrailingSpaces(w) == |w|
  {
    if w != [] {
      TrailingOfSpaces(w[..|w| - 1]);
    }
  }

  lemma {:induction false} TrimStartAfterSpaces(w: string, y: string)
    requires AllSpace(w)
    ensures TrimStart(w + y) == TrimStart(y)
  {
    LeadingOfSpaces(w);
    LeadingSpacesAppend(w, y);
    assert (w + y)[|w| + LeadingSpaces(y)..] == y[LeadingSpaces(y)..];
  }

  lemma {:induction false} TrimEndBeforeSpaces(y: string, w: string)
    requires AllSpace(w)
    ensures TrimEnd(y + w) == TrimEnd(y)
  {
    var k := TrailingSpaces(y);
    assert TrailingSpaces(y + w) == |w| + k by {
      TrailingAfterSpaces(y, w);
    }
    assert (y + w)[..|y| - k] == y[..|y| - k];
  }

  lemma {:induction false} TrimStartBeforeSpaces(x: string, w: string)
    requires AllSpace(w)
    ensures TrimStart(x) != [] ==> TrimStart(x + w) == TrimStart(x) + w
    ensures TrimStart(x) == [] ==> TrimStart(x + w) == []
  {
    LeadingOfSpaces(w);
    LeadingSpacesAppend(x, w);
    var i := LeadingSpaces(x);
    if i < |x| {
      assert (x + w)[i..] == x[i..] + w;
    } else {
      assert |x + w| == |x| + |w|;
    }
  }

  lemma {:induction false} TrimSurrounded(w1: string, x: string, w2: string)
    requires AllSpace(w1) && AllSpace(w2)
    ensures Trim(w1 + x + w2) == Trim(x)
  {
    assert w1 + x + w2 == w1 + (x + w2);
    TrimStartAfterSpaces(w1, x + w2);
    TrimStartBeforeSpaces(x, w2);
    if TrimStart(x) != [] {
      TrimEndBeforeSpaces(TrimStart(x), w2);
    }
  }

  /** `slugify(" x ") == slugify("x")`, for any white space on either side. */
  lemma {:induction false} SlugifyIgnoresSurroundingSpace(w1: string, x: string, w2: string)
    requires AllSpace(w1) && AllSpace(w2)
    ensures Slugify(w1 + x + w2) == Slugify(x)
  {
    LowerAppend(w1 + x, w2);
    LowerAppend(w1, x);
    LowerOfSpaces(w1);
    LowerOfSpaces(w2);
    TrimSurrounded(w1, Lower(x), w2);
  }

  // ---------------------------------------------------------------------
  // Edge behaviour.

  /** The slug pipeline after lower-casing, on a one- or two-character
      string whose first character transliterates to a letter or digit and
      whose second, if any, is dropped by the strip step. */
  lemma {:induction false} PipelineOfLetter(l: string)
    requires 1 <= |l| <= 2 && IsAlnum(Transliterate(l[0]))
    requires |l| == 2 ==> !IsSpace(l[1]) && !Allowed(Transliterate(l[1]))
    ensures var a := Transliterate(l[0]);
      ReplaceRuns(ReplaceRuns(Strip(TransliterateAll(Trim(l))), IsSpace, false), IsHyphen, false) == [a]
  {
    var a := Transliterate(l[0]);
    assert Trim(l) == l by {
      assert !IsSpace(l[0]) && !IsSpace(l[|l| - 1]);
      assert LeadingSpaces(l) == 0;
      assert TrailingSpaces(l) == 0;
    }
    assert Strip(TransliterateAll(l)) == [a] by {
      var tl := TransliterateAll(l);
      assert tl[0] == a && Allowed(a);
      assert Strip(tl) == [a] + Strip(tl[1..]);
      if |l| == 2 {
        assert tl[1..] == [Transliterate(l[1])];
        assert Strip(tl[1..]) == Strip(tl[1..][1..]);
        assert tl[1..][1..] == [];
      } else {
        assert tl[1..] == [];
      }
    }
    assert ReplaceRuns([a], IsSpace, false) == [a];
    assert ReplaceRuns([a], IsHyphen, false) == [a];
  }

  /** The slug of a one-character name whose lower-case form begins with
      a letter that transliterates to ASCII. */
  lemma {:induction false} SingleLetter(c: char)
    requires IsAlnum(Transliterate(LowerChar(c)[0]))
    requires |LowerChar(c)| == 2 ==> !IsSpace(LowerChar(c)[1]) && !Allowed(Transliterate(LowerChar(c)[1]))
    ensures Slugify([c]) == [Transliterate(LowerChar(c)[0])]
  {
    assert Lower([c]) == LowerChar(c) by {
      assert [c][1..] == [];
    }
    PipelineOfLetter(LowerChar(c));
  }

  /** A name with no surviving characters gives the empty slug. */
  lemma SlugOfEmpty()
    ensures Slugify("") == ""
  {
    assert Trim(Lower("")) == "";
  }

  /** A character that leaves no trace in a slug: it contributes no letter
      or digit and is neither a space nor a hyphen. */
  predicate Dropped(c: char) {
    KeptChar(c) == [] && c != ' ' && c != '-'
  }

  lemma DroppedChar(c: char)
    requires Dropped(c)
    ensures LowerFixed(c) && Transliterate(c) == c && !Allowed(c)
  {
  }

  lemma {:induction false} StripOfDropped(x: string)
    requires forall i :: 0 <= i < |x| ==> Dropped(x[i])
    ensures Strip(TransliterateAll(x)) == []
  {
    if x != [] {
      DroppedChar(x[0]);
      assert TransliterateAll(x)[1..] == TransliterateAll(x[1..]);
      StripOfDropped(x[1..]);
    }
  }

  /** A name made only of dropped characters (é, punctuation, tabs, ...)
      gives the empty slug. */
  lemma {:induction false} SlugOfDropped(s: string)
    requires forall i :: 0 <= i < |s| ==> Dropped(s[i])
    ensures Slugify(s) == ""
  {
    forall i | 0 <= i < |s| ensures LowerFixed(s[i]) {
      DroppedChar(s[i]);
    }
    LowerOfFixed(s);
    var t := TrimStart(s);
    assert t == s[LeadingSpaces(s)..];
    var u := TrimEnd(t);
    assert u == t[..|t| - TrailingSpaces(t)];
    assert forall i :: 0 <= i < |u| ==> Dropped(u[i]);
    StripOfDropped(u);
  }

  lemma AlnumNotSpace(c: char)
    requires IsAlnum(c)
    ensures !IsSpace(c) && !IsHyphen(c) && Allowed(c)
  {
  }

  lemma {:induction false} LowerTrimOfLeadingHyphen(d: char, w: string)
    requires Dropped(d) && !IsSpace(d)
    requires w != [] && forall i :: 0 <= i < |w| ==> IsAlnum(w[i])
    ensures Trim(Lower([d, ' '] + w)) == [d, ' '] + w
  {
    var s := [d, ' '] + w;
    DroppedChar(d);
    assert Lower(s) == s by {
      forall i | 0 <= i < |s| ensures LowerFixed(s[i]) {
        if i >= 2 { assert s[i] == w[i - 2]; }
      }
      LowerOfFixed(s);
    }
    assert s[|s| - 1] == w[|w| - 1];
    AlnumNotSpace(w[|w| - 1]);
    assert LeadingSpaces(s) == 0;
    assert TrailingSpaces(s) == 0;
  }

  lemma {:induction false} StripOfLeadingHyphen(d: char, w: string)
    requires Dropped(d) && !IsSpace(d)
    requires w != [] && forall i :: 0 <= i < |w| ==> IsAlnum(w[i])
    ensures Strip(TransliterateAll([d, ' '] + w)) == [' '] + w
  {
    var s := [d, ' '] + w;
    DroppedChar(d);
    assert TransliterateAll(s) == s by {
      forall i | 0 <= i < |s| ensures Transliterate(s[i]) == s[i] {
        if i >= 2 { assert s[i] == w[i - 2]; }
      }
      TransliterateKeeps(s);
    }
    assert s[1..] == [' '] + w;
    assert s[1..][1..] == w;
    forall i | 0 <= i < |w| ensures Allowed(w[i]) {
      AlnumNotSpace(w[i]);
    }
    StripKeepsAllowed(w);
  }

  lemma {:induction false} RunsOfLeadingHyphen(w: string)
    requires w != [] && forall i :: 0 <= i < |w| ==> IsAlnum(w[i])
    ensures ReplaceRuns(ReplaceRuns([' '] + w, IsSpace, false), IsHyphen, false) == ['-'] + w
  {
    forall i | 0 <= i < |w| ensures !IsSpace(w[i]) && !IsHyphen(w[i]) {
      AlnumNotSpace(w[i]);
    }
    RunBecomesOneHyphen([' '], w, IsSpace);
    ReplaceRunsWithoutRuns(w, IsSpace, false);
    assert (['-'] + w)[1..] == w;
    ReplaceRunsWithoutRuns(w, IsHyphen, true);
  }

  /** A dropped character followed by a space leaves a leading hyphen, as
      "é abc" gives "-abc". */
  lemma {:induction false} SlugLeadingHyphen(d: char, w: string)
    requires Dropped(d) && !IsSpace(d)
    requires w != [] && forall i :: 0 <= i < |w| ==> IsAlnum(w[i])
    ensures Slugify([d, ' '] + w) == ['-'] + w
  {
    LowerTrimOfLeadingHyphen(d, w);
    StripOfLeadingHyphen(d, w);
    RunsOfLeadingHyphen(w);
  }

  /** The twelve Turkish letters of steps 3-8 (lower and upper case). */
  predicate IsTurkishLetter(c: char) {
    c in "\U{015F}\U{015E}\U{0131}\U{0130}\U{00FC}\U{00DC}\U{00F6}\U{00D6}\U{00E7}\U{00C7}\U{011F}\U{011E}"
  }

  /** Lower-casing a Turkish letter keeps it a Turkish letter (or, for
      U+0130, an `i` followed by a combining dot that step 11 drops). */
  lemma TurkishLowerChar(c: char)
    requires IsTurkishLetter(c)
    ensures IsAlnum(Transliterate(LowerChar(c)[0]))
    ensures Transliterate(LowerChar(c)[0]) == Transliterate(c)
  {
  }

  lemma TurkishLowerCharTail(c: char)
    requires IsTurkishLetter(c)
    ensures |LowerChar(c)| == 2 ==> !IsSpace(LowerChar(c)[1]) && !Allowed(Transliterate(LowerChar(c)[1]))
  {
  }

  /** Each Turkish letter, in either case, becomes its ASCII letter:
      ş/Ş to s, ı/İ to i, ü/Ü to u, ö/Ö to o, ç/Ç to c, ğ/Ğ to g. */
  lemma {:induction false} TurkishLetter(c: char)
    requires IsTurkishLetter(c)
    ensures Slugify([c]) == [Transliterate(c)]
    ensures Transliterate(c) in "siuocg"
  {
    TurkishLowerChar(c);
    TurkishLowerCharTail(c);
    SingleLetter(c);
  }
}

=== FILE: songs.dfy ===
/** Song documents (Song.js). The rating handlers of routes/song.js are the
    album ones (module Rateable); what differs is that Song.js, as written,
    cannot be loaded. */
module Songs {
  import opened Wrappers
  import opened Ids
  import opened Text
  import opened Aggregate
  import opened Rateable

  datatype SongInfo = SongInfo(
    name: string,
    genres: seq<string>,
    artistRefObjectId: Id,
    albumRefObjectId: Id,
    isConfirmed: bool)

  type Song = Doc<SongInfo>

  /** A new song: trimmed name, `rating` 0, not confirmed, summary sound. */
  function NewSong(name: string, genres: seq<string>, artist: Id, album: Id): (s: Song)
    ensures s.rating == 0.0 && s.ratings == [] && Sound(s)
    ensures !s.info.isConfirmed
    ensures s.info.name == [] || (!IsSpace(s.info.name[0]) && !IsSpace(s.info.name[|s.info.name| - 1]))
    ensures s.info.albumRefObjectId == album && s.info.artistRefObjectId == artist
  {
    New(SongInfo(Trim(name), genres, artist, album, false))
  }

  /** Song.js as written attaches its recompute to `ArtistSchema`, a name
      the file never declares, so requiring the model file throws a
      ReferenceError. The router chain requires it at start-up, so the
      server never starts and no request is answered; for a song rating
      the outcome is this error, whatever the input. */
  function RateAsWritten(songs: map<Id, Song>, id: Id, caller: Option<Id>, v: real)
    : (r: Result<(map<Id, Song>, Reply<SongInfo>), Fault>)
    ensures r.Failure? && r.error == ReferenceFault
  {
    Failure(ReferenceFault)
  }

  /** The discrepancy: a rating the album handler would accept is lost for
      a song; attached to `SongSchema` it is stored as for albums. */
  lemma SongRatingLost(songs: map<Id, Song>, id: Id, u: Id, v: real)
    requires id in songs && ValidRating(v)
    ensures RateAsWritten(songs, id, Some(u), v).Failure?
    ensures Rate(songs, id, Some(u), v).Success?
    ensures Rate(songs, id, Some(u), v).value.1.ratingOfRelevantUser == Some(v)
  {
  }
}

=== FILE: text.dfy ===
/** Character classes and string primitives of the JavaScript runtime that
    the handlers rely on: `toLowerCase`, `trim`, the regex class `\s`, and
    `String.prototype.replace` with a string pattern. */
module Text {
  import opened Wrappers

  /** The characters JavaScript's `\s` class and `String.prototype.trim`
      treat as white space (WhiteSpace and LineTerminator productions). */
  predicate IsSpace(c: char) {
    c == ' ' || c == '\t' || c == '\n' || c == '\U{000B}' || c == '\U{000C}' || c == '\r'
    || c == '\U{00A0}' || c == '\U{1680}' || ('\U{2000}' <= c <= '\U{200A}')
    || c == '\U{2028}' || c == '\U{2029}' || c == '\U{202F}' || c == '\U{205F}'
    || c == '\U{3000}' || c == '\U{FEFF}'
  }

  /** JavaScript truthiness of an optional string: present and not empty. */
  predicate Truthy(s: Option<string>) {
    s.Some? && s.value != ""
  }

  predicate IsUpper(c: char) { 'A' <= c <= 'Z' }
  predicate IsLower(c: char) { 'a' <= c <= 'z' }
  predicate IsDigit(c: char) { '0' <= c <= '9' }
  predicate IsAlnum(c: char) { IsLower(c) || IsDigit(c) }

  /** `toLowerCase` of one character. ASCII capitals, the Turkish capitals
      the slug transliterator cares about, U+0130 (capital I with dot, which
      lowercases to `i` followed by U+0307) and U+212A (Kelvin sign, which
      lowercases to `k`) are mapped; every other character is kept, which is
      exact for every character whose lower-case form is ASCII. */
  function LowerChar(c: char): (r: seq<char>)
    ensures 1 <= |r| <= 2
    ensures forall i :: 0 <= i < |r| ==> !IsUpper(r[i])
    ensures IsSpace(c) ==> r == [c]
  {
    if IsUpper(c) then [(c as int + 32) as char]
    else if c == '\U{0130}' then ['i', '\U{0307}']
    else if c == '\U{212A}' then ['k']
    else if c == '\U{015E}' then ['\U{015F}']  // Ş -> ş
    else if c == '\U{00DC}' then ['\U{00FC}']  // Ü -> ü
    else if c == '\U{00D6}' then ['\U{00F6}']  // Ö -> ö
    else if c == '\U{00C7}' then ['\U{00E7}']  // Ç -> ç
    else if c == '\U{011E}' then ['\U{011F}']  // Ğ -> ğ
    else [c]
  }

  /** `String.prototype.toLowerCase`. */
  function Lower(s: string): (r: string)
    ensures forall i :: 0 <= i < |r| ==> !IsUpper(r[i])
    ensures |s| <= |r|
  {
    if s == [] then [] else LowerChar(s[0]) + Lower(s[1..])
  }

  lemma {:induction false} LowerAppend(a: string, b: string)
    ensures Lower(a + b) == Lower(a) + Lower(b)
  {
    if a == [] {
      assert a + b == b;
    } else {
      assert (a + b)[0] == a[0];
      assert (a + b)[1..] == a[1..] + b;
      LowerAppend(a[1..], b);
    }
  }

  /** A character that `toLowerCase` leaves as it is. */
  predicate LowerFixed(c: char) {
    LowerChar(c) == [c]
  }

  lemma {:induction false} LowerOfFixed(s: string)
    requires forall i :: 0 <= i < |s| ==> LowerFixed(s[i])
    ensures Lower(s) == s
  {
    if s != [] {
      LowerOfFixed(s[1..]);
    }
  }

  /** Lower-casing twice is lower-casing once. */
  lemma {:induction false} LowerIdempotent(s: string)
    ensures Lower(Lower(s)) == Lower(s)
  {
    if s != [] {
      var h := LowerChar(s[0]);
      assert forall i :: 0 <= i < |h| ==> LowerFixed(h[i]);
      LowerOfFixed(h);
      LowerAppend(h, Lower(s[1..]));
      LowerIdempotent(s[1..]);
    }
  }

  predicate AllSpace(s: string) {
    forall i :: 0 <= i < |s| ==> IsSpace(s[i])
  }

  /** Number of white-space characters at the start of `s`. */
  function LeadingSpaces(s: string): (k: nat)
    ensures k <= |s| && AllSpace(s[..k])
    ensures k < |s| ==> !IsSpace(s[k])
  {
    if s != [] && IsSpace(s[0]) then
      var k := LeadingSpaces(s[1..]);
      assert s[..k + 1] == [s[0]] + s[1..][..k];
      k + 1
    else 0
  }

  /** Number of white-space characters at the end of `s`. */
  function TrailingSpaces(s: string): (k: nat)
    ensures k <= |s|
    ensures forall i :: |s| - k <= i < |s| ==> IsSpace(s[i])
    ensures k < |s| ==> !IsSpace(s[|s| - k - 1])
  {
    if s != [] && IsSpace(s[|s| - 1]) then
      TrailingSpaces(s[..|s| - 1]) + 1
    else 0
  }

  function TrimStart(s: string): (r: string)
    ensures r == [] || !IsSpace(r[0])
  {
    s[LeadingSpaces(s)..]
  }

  function TrimEnd(s: string): (r: string)
    ensures r == [] || !IsSpace(r[|r| - 1])
  {
    s[..|s| - TrailingSpaces(s)]
  }

  /** `String.prototype.trim`: white space removed from both ends. */
  function Trim(s: string): (r: string)
    ensures r == [] || (!IsSpace(r[0]) && !IsSpace(r[|r| - 1]))
  {
    TrimEnd(TrimStart(s))
  }

  /** A string without white space at its ends is its own trim. */
  lemma TrimOfTrimmed(s: string)
    requires s == [] || (!IsSpace(s[0]) && !IsSpace(s[|s| - 1]))
    ensures Trim(s) == s
  {
    assert LeadingSpaces(s) == 0;
    assert TrimStart(s) == s;
    assert TrailingSpaces(s) == 0;
  }

  /** `pat` occurs in `s` at position `k`. */
  predicate OccursAt(s: string, pat: string, k: nat) {
    k + |pat| <= |s| && s[k..k + |pat|] == pat
  }

  /** Index of the first occurrence of `pat` in `s`, if any. */
  function IndexOf(s: string, pat: string): (r: Option<nat>)
    ensures r.Some? ==> OccursAt(s, pat, r.value)
    ensures r.Some? ==> forall k: nat :: k < r.value ==> !OccursAt(s, pat, k)
    ensures r.None? ==> forall k: nat :: !OccursAt(s, pat, k)
  {
    IndexFrom(s, pat, 0)
  }

  function IndexFrom(s: string, pat: string, from: nat): (r: Option<nat>)
    requires forall k: nat :: k < from ==> !OccursAt(s, pat, k)
    ensures r.Some? ==> OccursAt(s, pat, r.value)
    ensures r.Some? ==> forall k: nat :: k < r.value ==> !OccursAt(s, pat, k)
    ensures r.None? ==> forall k: nat :: !OccursAt(s, pat, k)
    decreases |s| + 1 - from
  {
    if from + |pat| > |s| then None
    else if OccursAt(s, pat, from) then Some(from)
    else IndexFrom(s, pat, from + 1)
  }

  /** `s.replace(pat, "")` with a string pattern: only the first occurrence
      is removed. */
  function RemoveFirst(s: string, pat: string): (r: string)
    ensures (forall k: nat :: !OccursAt(s, pat, k)) ==> r == s
    ensures forall i: nat :: OccursAt(s, pat, i) && (forall k: nat :: k < i ==> !OccursAt(s, pat, k)) ==>
      r == s[..i] + s[i + |pat|..]
  {
    match IndexOf(s, pat)
    case None => s
    case Some(i) => s[..i] + s[i + |pat|..]
  }

  /** Removing a prefix that is the pattern gives back the rest. */
  lemma {:induction false} RemoveLeadingPattern(pat: string, t: string)
    requires pat != []
    ensures RemoveFirst(pat + t, pat) == t
  {
    var s := pat + t;
    assert s[0..|pat|] == pat;
    assert OccursAt(s, pat, 0);
    var i := IndexOf(s, pat);
    assert i.Some? && i.value == 0;
    assert s[|pat|..] == t;
  }
}

=== FILE: upload.dfy ===
/** The image upload filter of multer.js: only .jpg, .jpeg and .png files,
    in any letter case, are accepted. */
module Upload {
  import opened Wrappers
  import opened Text

  /** The one call of multer's callback: `cb(error, accept)`. */
  datatype Callback = Callback(error: Option<string>, accept: bool)

  const Rejected := "Accepted file extensions are jpg, jpeg ve png."

  predicate ImageExtension(ext: string) {
    ext == ".jpg" || ext == ".jpeg" || ext == ".png"
  }

  /** `fileFilter`, given the extension `path.extname` found in the file's
      original name. */
  function FileFilter(ext: string): (cb: Callback)
    ensures cb.accept <==> ImageExtension(Lower(ext))
    ensures cb.accept ==> cb.error.None?
    ensures !cb.accept ==> cb.error == Some(Rejected)
  {
    if ImageExtension(Lower(ext)) then Callback(None, true) else Callback(Some(Rejected), false)
  }

  /** The decision ignores letter case: an extension and its lower-case
      form are treated alike. */
  lemma FileFilterIgnoresCase(ext: string)
    ensures FileFilter(Lower(ext)) == FileFilter(ext)
  {
    LowerIdempotent(ext);
  }

  /** An upper-case image extension is accepted. */
  lemma UpperCaseAccepted()
    ensures FileFilter(".PNG").accept
  {
    assert Lower(".PNG") == ".png";
  }

  /** So is a mixed-case one. */
  lemma MixedCaseAccepted()
    ensures FileFilter(".JpEg").accept
  {
    assert Lower(".JpEg") == ".jpeg";
  }

  /** Anything else is refused, the other image formats included. */
  lemma OthersRefused()
    ensures !FileFilter(".gif").accept
    ensures !FileFilter("").accept
    ensures FileFilter(".webp").error == Some(Rejected)
  {
    LowerOfFixed(".gif");
    LowerOfFixed(".webp");
    assert Lower("") == "";
  }
}

=== FILE: users.dfy ===
/** The user model of User.js: schema defaults, the JSON projection, the
    login lookup, the pre-save hook and the activation code generator. */
module Users {
  import opened Wrappers
  import opened Text
  import opened Patterns
  import Slug

  /** The frozen Role object. */
  datatype Role = Admin | Moderator | User

  datatype UserDoc = UserDoc(
    email: string,
    username: string,
    password: string,
    role: Role,
    isActivated: bool,
    activationCode: Option<string>,
    isPrivate: bool,
    isDeleted: bool,
    avatar: Option<string>,
    about: Option<string>)

  /** A user as first built: e-mail and username trimmed by the schema,
      role User, not activated, public, not deleted. */
  function NewUser(email: string, username: string, password: string): (u: UserDoc)
    ensures u.role == User && !u.isActivated && !u.isPrivate && !u.isDeleted
    ensures u.email == Trim(email) && u.username == Trim(username) && u.password == password
    ensures u.activationCode.None?
  {
    UserDoc(Trim(email), Trim(username), password, User, false, None, false, false, None, None)
  }

  /** `toJSON`: the document's fields without `password` and `isDeleted`. */
  function ToJson<V>(doc: map<string, V>): (r: map<string, V>)
    ensures "password" !in r && "isDeleted" !in r
    ensures forall k :: k in doc && k != "password" && k != "isDeleted" ==> k in r && r[k] == doc[k]
    ensures forall k :: k in r ==> k in doc
  {
    doc - {"password", "isDeleted"}
  }

  /** Projecting twice is projecting once. */
  lemma ToJsonIdempotent<V>(doc: map<string, V>)
    ensures ToJson(ToJson(doc)) == ToJson(doc)
  {
  }

  const InvalidLogin := "Invalid username or password"

  /** `findOne` on one field: the first user whose e-mail (or username)
      equals `login`. */
  function FirstMatch(users: seq<UserDoc>, login: string, byEmail: bool): (r: Option<nat>)
    ensures r.Some? ==>
      r.value < |users| &&
      (if byEmail then users[r.value].email else users[r.value].username) == login
    ensures r.Some? ==> forall j :: 0 <= j < r.value ==>
      (if byEmail then users[j].email else users[j].username) != login
    ensures r.None? ==> forall j :: 0 <= j < |users| ==>
      (if byEmail then users[j].email else users[j].username) != login
  {
    if users == [] then None
    else if (if byEmail then users[0].email else users[0].username) == login then Some(0)
    else match FirstMatch(users[1..], login, byEmail)
      case None => None
      case Some(i) => Some(i + 1)
  }

  /** `findByCredentials`: an identifier that looks like an e-mail is
      looked up by e-mail, anything else by username. The schema's `trim`
      setters also apply to the query, so the stored field is compared with
      the trimmed identifier, while the pattern test sees it untrimmed.
      `compare` stands for `bcrypt.compare` of the given password with the
      stored hash. */
  function FindByCredentials(users: seq<UserDoc>, login: string, password: string,
                             compare: (string, string) -> bool)
    : (r: Result<UserDoc, Fault>)
    ensures r.Failure? ==> r.error == Thrown(InvalidLogin)
    ensures r.Success? <==>
      FirstMatch(users, Trim(login), EmailPattern(login)).Some? &&
      compare(password, users[FirstMatch(users, Trim(login), EmailPattern(login)).value].password)
    ensures r.Success? ==> r.value in users && compare(password, r.value.password)
    ensures r.Success? && EmailPattern(login) ==> r.value.email == Trim(login)
    ensures r.Success? && !EmailPattern(login) ==> r.value.username == Trim(login)
  {
    match FirstMatch(users, Trim(login), EmailPattern(login))
    case None => Failure(Thrown(InvalidLogin))
    case Some(i) =>
      if compare(password, users[i].password) then Success(users[i])
      else Failure(Thrown(InvalidLogin))
  }

  /** A failed login is indistinguishable from a login to an empty user
      base: a wrong password reads exactly like an unknown user. */
  lemma FailedLoginRevealsNothing(users: seq<UserDoc>, login: string, password: string,
                                  compare: (string, string) -> bool)
    requires FindByCredentials(users, login, password, compare).Failure?
    ensures FindByCredentials(users, login, password, compare)
         == FindByCredentials([], login, password, compare)
  {
  }

  /** White space around an identifier defeats the e-mail pattern, so a
      padded e-mail address is looked up among the usernames. */
  lemma PaddedLoginNotEmail(w1: string, x: string, w2: string)
    requires AllSpace(w1) && AllSpace(w2) && w1 + w2 != []
    ensures !EmailPattern(w1 + x + w2)
  {
    var s := w1 + x + w2;
    forall k, j | 0 < k && k + 1 < j && j + 1 < |s| && s[k] == '@' && s[j] == '.'
      ensures !(AllPlain(s[..k]) && AllPlain(s[k + 1..j]) && AllPlain(s[j + 1..]))
    {
      if w1 != [] {
        assert s[..k][0] == w1[0];
      } else {
        assert s[j + 1..][|s| - j - 2] == w2[|w2| - 1];
      }
    }
  }

  /** A username login does not care about surrounding white space. */
  lemma {:induction false} UsernameLoginIgnoresPadding(users: seq<UserDoc>, w1: string, x: string, w2: string,
                                                       password: string, compare: (string, string) -> bool)
    requires AllSpace(w1) && AllSpace(w2) && !EmailPattern(x)
    ensures FindByCredentials(users, w1 + x + w2, password, compare)
         == FindByCredentials(users, x, password, compare)
  {
    var l := w1 + x + w2;
    Slug.TrimSurrounded(w1, x, w2);
    assert !EmailPattern(l) by {
      if w1 + w2 == [] {
        assert l == x;
      } else {
        PaddedLoginNotEmail(w1, x, w2);
      }
    }
    assert FirstMatch(users, Trim(l), EmailPattern(l)) == FirstMatch(users, Trim(x), EmailPattern(x));
  }

  /** The pre-save hook: a new document gets an activation code (`code`,
      drawn by the generator below); a modified password is replaced by its
      hash (`hash` stands for `bcrypt.hash`). */
  function PreSave(u: UserDoc, isNew: bool, passwordModified: bool, code: string,
                   hash: string -> string)
    : (r: UserDoc)
    ensures r.activationCode.Some? && r.activationCode != u.activationCode ==> isNew
    ensures isNew ==> r.activationCode == Some(code)
    ensures r.password != u.password ==> passwordModified
    ensures passwordModified ==> r.password == hash(u.password)
    ensures r == u.(activationCode := r.activationCode, password := r.password)
  {
    var withCode := if isNew then u.(activationCode := Some(code)) else u;
    if passwordModified then withCode.(password := hash(u.password)) else withCode
  }

  /** Saving again without changes neither re-hashes nor re-codes. */
  lemma ResaveKeepsSecrets(u: UserDoc, code: string, code2: string, hash: string -> string)
    ensures var saved := PreSave(u, true, true, code, hash);
      PreSave(saved, false, false, code2, hash) == saved
  {
  }

  /** The generator's 62 characters. */
  const Alphabet := "abcdefghijklmnopqrstuvwxyzABCDEFGHIJKLMNOPQRSTUVWXYZ0123456789"

  predicate InAlphabet(c: char) {
    c in Alphabet
  }

  /** `Math.floor(r * 62)` for a draw of `Math.random`. */
  function Pick(r: real): (i: nat)
    requires 0.0 <= r < 1.0
    ensures i < 62
  {
    (r * 62.0).Floor
  }

  predicate ValidDraws(draws: seq<real>) {
    forall i :: 0 <= i < |draws| ==> 0.0 <= draws[i] < 1.0
  }

  /** The code a sequence of draws yields. */
  function CodeFrom(draws: seq<real>, n: nat): (code: string)
    requires n <= |draws| && ValidDraws(draws)
    ensures |code| == n
    ensures forall i :: 0 <= i < n ==> code[i] == Alphabet[Pick(draws[i])]
  {
    seq(n, i requires 0 <= i < n => Alphabet[Pick(draws[i])])
  }

  /** `generateActivationCode(length = 6)`: one alphabet character per
      draw, `length` times (none for a length below 1). */
  method GenerateActivationCode(length: Option<int>, draws: seq<real>) returns (code: string)
    requires ValidDraws(draws)
    requires length.None? ==> |draws| >= 6
    requires length.Some? ==> |draws| >= length.value
    ensures |code| == (if length.None? then 6 else if length.value < 0 then 0 else length.value)
    ensures forall i :: 0 <= i < |code| ==> InAlphabet(code[i])
    ensures code == CodeFrom(draws, |code|)
  {
    var n := if length.None? then 6 else length.value;
    code := "";
    var i := 0;
    while i < n
      invariant 0 <= i && (n >= 0 ==> i <= n)
      invariant n < 0 ==> i == 0
      invariant |code| == i
      invariant forall j :: 0 <= j < i ==> code[j] == Alphabet[Pick(draws[j])]
    {
      code := code + [Alphabet[Pick(draws[i])]];
      i := i + 1;
    }
  }

  /** Every code of alphabet characters is produced by some valid draws, so
      the generator can yield any such code. */
  lemma EveryCodeReachable(code: string)
    requires forall i :: 0 <= i < |code| ==> InAlphabet(code[i])
    ensures exists draws :: ValidDraws(draws) && |draws| == |code| && CodeFrom(draws, |code|) == code
  {
    var idx := seq(|code|, i requires 0 <= i < |code| => IndexOf62(code[i]));
    var draws := seq(|code|, i requires 0 <= i < |code| => idx[i] as real / 62.0);
    forall i | 0 <= i < |code|
      ensures 0.0 <= draws[i] < 1.0 && Pick(draws[i]) == idx[i]
    {
      assert draws[i] * 62.0 == idx[i] as real;
    }
    assert CodeFrom(draws, |code|) == code;
  }

  /** The position of an alphabet character. */
  ghost function IndexOf62(c: char): (k: nat)
    requires InAlphabet(c)
    ensures k < 62 && Alphabet[k] == c
  {
    var k :| 0 <= k < |Alphabet| && Alphabet[k] == c; k
  }
}

=== FILE: wrappers.dfy ===
/** Failure-compatible wrappers shared by every module of the model. */
module Wrappers {

  datatype Option<+T> = None | Some(value: T)

  /** The outcome of a request handler: a value, or the error it threw. */
  datatype Result<+T, +E> = Success(value: T) | Failure(error: E)

  /** The errors the handlers can throw. A handler turns each one it catches
      into a 400 reply whose `message` is the error's message; a
      `ReferenceFault` raised while a module loads is caught by no handler
      and stops the server instead. */
  datatype Fault =
    | Thrown(message: string)   // `throw new Error(message)` in the handler itself
    | TypeFault                 // a JavaScript TypeError (property of null / undefined)
    | ReferenceFault            // a JavaScript ReferenceError (undeclared identifier)
    | ValidationFault           // Mongoose schema validation rejected the document

  /** Node's `Number(...)`: a finite value or NaN. */
  datatype Num = NaN | Finite(n: int)
}

/** Document identifiers (Mongo ObjectIds), compared by value as the
    handlers do with `toString()`. */
module Ids {
  type Id = nat
}

/** What a middleware does with a request: pass it on with `next()`, or
    answer it with a status code, a `status` field and a message. */
module Http {
  datatype Verdict = Next | Reject(code: int, status: string, message: string)
}
